=== FILE: README.md ===
# monitor_status_lite in Dafny

A model of the deterministic core of the `monitor_status_lite` chat-bot
plugin. The plugin answers four commands:

- `status` draws a dashboard image of the host and the bot, or sends a text report when the image cannot be drawn.
- `sysinfo` sends a short text overview.
- `mhelp` sends a fixed help text.
- `mem` analyses the bot's memory history.

A background task samples the bot's resident memory once a minute into a bounded history of sixty samples.

The model covers:

- **`format_duration`**: the split of a second count into days, hours, minutes and seconds, the choice of at most three non-zero components, and the "N/A" case. The rendered text is proved to parse back to the components it shows.
- **The memory history**: the bounded deque, the recorder step, the statistics of the `mem` command (current, mean, peak, low) and its five-sample trend classification.
- **`get_disk_info`**: the partition filter (optical drives and partitions without a file system are skipped, in any letter case of "cdrom"), the per-disk record and the tolerance of failing queries.
- **The plugin counts** of the `status` command.
- **The dashboard of `MonitorImageGenerator`**:
  - canvas and card geometry, and the two card columns;
  - the usage colours at 60 % and 85 %;
  - the progress bar and mini bar fill widths;
  - the disk card, which shows at most five rows and strips backslashes from mount points;
  - the bot status colour, the monitor state and the scheduled-restart label;
  - the plugin card.
- **The `status` command**: the data it assembles and its two outcomes.

Module layout (one file each):

| Module | Models |
|---|---|
| `Wrappers` | `Option` |
| `Decimal` | Python's decimal rendering of naturals (`f"{n}"`) |
| `Numbers` | `int()` of a float, truncating toward zero |
| `Duration` | `format_duration` |
| `MemoryHistory` | the history, the recorder and the `mem` command |
| `Disks` | `get_disk_info` |
| `Plugins` | the enabled-plugin count |
| `Layout` | the generator's geometry |
| `Dashboard` | the generator's content decisions |
| `StatusCommand` | the `status` command |

How Python is modelled:

- Python integers are unbounded and map to `int`/`nat`.
- Floats map to `real`, with `int()` written out as truncation toward zero.
- `//` and `%` are only used on non-negative operands here, where Dafny and Python agree.
- PIL rectangles are kept as their corner lists `[x0, y0, x1, y1]`.
- Everything the plugin reads from the operating system is a parameter:
  - the partition listing;
  - per-mount usage;
  - a memory sample, or its absence when the query raises;
  - the process information;
  - the plugin registry;
  - whether the image renders.

## Model

| member | source | states |
|---|---|---|
| Decimal.ToNatFromNat | monitor_status_lite/plugin.py:52-58 | the decimal text of every count used in a component reads back as that count |
| Decimal.FromNatToNat | monitor_status_lite/plugin.py:52-58 | digit text without a leading zero is exactly the text Python writes for the number it denotes, so that text is the only rendering of the number |
| Duration.Split | monitor_status_lite/plugin.py:45-48 | the day/hour/minute/second split keeps every lower unit under its carry limit and adds back up to the input |
| Duration.SplitUnique | monitor_status_lite/plugin.py:45-48 | a split is the only carry-normal breakdown of its total, so the split is the inverse of summing a breakdown |
| Duration.Shown | monitor_status_lite/plugin.py:50-60 | the shown components are one to three, in falling unit order, each with its unit's value; only seconds may be zero, and only when nothing larger is non-zero; with all four units non-zero the seconds are dropped |
| Duration.ShownComplete | monitor_status_lite/plugin.py:50-60 | every non-zero unit is shown, except the seconds when all four units are non-zero |
| Duration.PartsOf | monitor_status_lite/plugin.py:45-60 | for a second count: one to three descending components whose values are those of the split; a zero component only as the seconds of a count below a minute; a count below a minute is shown as seconds alone |
| Duration.PartsApproximate | monitor_status_lite/plugin.py:50-60 | the shown components add up to the count, less under a minute; they are exact precisely unless all four units are non-zero |
| Duration.Format | monitor_status_lite/plugin.py:40-60 | the text is "N/A" exactly for a negative count; otherwise it parses back to the components of the count, which with `ParseInjective` pins down the text itself |
| Duration.ParseRender | monitor_status_lite/plugin.py:52-60 | joining rendered components loses nothing: the joined text parses back to the component list |
| Duration.RenderParse | monitor_status_lite/plugin.py:52-60 | every text the parser accepts, which writes numbers without leading zeros, is exactly the rendering of what it parses to |
| Duration.ParseInjective | monitor_status_lite/plugin.py:52-60 | two accepted texts that parse to the same components are the same text, so the formatted text is pinned down by its components |
| Duration.ZeroFormatsAsZeroSeconds | monitor_status_lite/plugin.py:57-58 | a zero count is written "0秒", the one zero component ever shown |
| MemoryHistory.Append | monitor_status_lite/plugin.py:19 | appending to the deque keeps at most sixty samples; the new sample is last; below capacity earlier samples stay in place, at capacity the oldest drops and the rest shift down; the result is the newest sixty of the old history plus the sample |
| MemoryHistory.AppendAllKeepsNewest | monitor_status_lite/plugin.py:19 | after any stream of appends the history is exactly the newest sixty samples of everything recorded |
| MemoryHistory.ExtremesAttained | monitor_status_lite/plugin.py:254-255 | peak and low are samples of the history, not merely bounds |
| MemoryHistory.MeanBetween | monitor_status_lite/plugin.py:253-255 | the average lies between the low and the peak |
| MemoryHistory.Statistics | monitor_status_lite/plugin.py:252-255 | current is the newest sample; peak and low are samples of the history with every sample between them; the current one and the average lie between low and peak; the average times the sample count is the sum |
| MemoryHistory.Classify | monitor_status_lite/plugin.py:265-273 | the five buckets partition the difference exactly at >10, >2, [-2, 2], <-2 and <-10 |
| MemoryHistory.ClassifyMonotone | monitor_status_lite/plugin.py:265-273 | a larger difference never lands in a lower bucket |
| MemoryHistory.TrendOf | monitor_status_lite/plugin.py:257-275 | the trend reads "collecting" exactly when fewer than five samples exist, and otherwise classifies newest-five mean minus oldest-five mean |
| MemoryHistory.FiveSamplesAreStable | monitor_status_lite/plugin.py:259-273 | with exactly five samples both windows coincide, so the trend is stable |
| MemoryHistory.NonDecreasingNeverFalls | monitor_status_lite/plugin.py:259-273 | a history that never went down is never reported as falling |
| MemoryHistory.TrendShiftInvariant | monitor_status_lite/plugin.py:259-273 | raising every sample by the same amount leaves the trend unchanged |
| MemoryHistory.Record | monitor_status_lite/plugin.py:334-343 | a failed sample leaves the history alone; a successful one is appended |
| MemoryHistory.MemCommand | monitor_status_lite/plugin.py:238-288 | an empty history first gets one lazy sample; the report is "no data" exactly when the history was empty and that sample failed, answered with the non-notable "❌ 暂无内存数据"; otherwise the report is the statistics and trend of the resulting history, answered with "内存分析已发送" |
| MemoryHistory.MemCommandRepeats | monitor_status_lite/plugin.py:240-250 | once a report was produced, asking again leaves the history alone and gives the same report, whatever the next sample would be: the lazy sample is taken only for an empty history |
| MemoryHistory.FirstLazySample | monitor_status_lite/plugin.py:240-275 | the first `mem` on an empty history with a successful sample reports one minute, that sample as every statistic, and a collecting trend |
| MemoryHistory.EqualSamplesReport | monitor_status_lite/plugin.py:252-273 | five equal samples report that value as every statistic and a stable trend |
| Disks.Contains | monitor_status_lite/plugin.py:82 | Python's substring test: true exactly when the word occurs at some position |
| Disks.IsOptical | monitor_status_lite/plugin.py:82 | the options mark an optical drive exactly when "cdrom" occurs in them, ignoring letter case |
| Disks.OpticalIgnoresCase | monitor_status_lite/plugin.py:82 | option strings that lower to the same text are both optical or both not |
| Disks.Entry | monitor_status_lite/plugin.py:85-91 | the record keeps mount point and percentage and converts the total, used and free byte sizes to GiB exactly |
| Disks.Collect | monitor_status_lite/plugin.py:80-93 | no more disks than partitions; every reported disk comes from a listed, unskipped partition whose usage query succeeded, and every such partition is reported |
| Disks.CollectAppend | monitor_status_lite/plugin.py:80-93 | partitions are handled one at a time in listing order: collecting a joined listing joins the results |
| Disks.CollectSkipped | monitor_status_lite/plugin.py:82-83 | a listing of only skipped partitions reports no disks |
| Disks.DiskInfo | monitor_status_lite/plugin.py:76-96 | a listing that fails outright gives no disks; otherwise the collected disks |
| Plugins.EnabledCount | monitor_status_lite/plugin.py:160 | the enabled count is at most the loaded count, equal to it exactly when every plugin is enabled, and zero exactly when none is |
| Plugins.EnabledCountAppend | monitor_status_lite/plugin.py:160 | the count distributes over joined registries |
| Plugins.ShownEnabled | monitor_status_lite/image_generator.py:231-232 | the plugin card shows the reported enabled count, or the loaded count when none is reported |
| Numbers.Trunc | monitor_status_lite/plugin.py:136 | `int()` of a float truncates toward zero: it lies within one of the input, on the zero side |
| Numbers.TruncMonotone | monitor_status_lite/image_generator.py:281 | truncation keeps order |
| Layout.DiskCardHeight | monitor_status_lite/image_generator.py:47 | the disk card is between 90 and 230 px high: 90 up to one disk, 35 px per disk plus 55 up to five, 230 from five on |
| Layout.DiskCardHeightMonotone | monitor_status_lite/image_generator.py:47 | more disks never shrink the disk card |
| Layout.ImageHeight | monitor_status_lite/image_generator.py:48 | the canvas is at least 920 px high, exactly 920 up to three disks, and 35 px taller per further disk |
| Layout.ImageHeightStep | monitor_status_lite/image_generator.py:48 | from three disks on, each further disk adds 35 px to the canvas |
| Layout.ColumnsFit | monitor_status_lite/image_generator.py:56-83 | cards are 512 px wide, the right column starts at 562, and both columns fit side by side inside the 1100 px canvas |
| Layout.DrawCard | monitor_status_lite/image_generator.py:113-128 | the card's rectangle spans the given position and size, the content box is inset 18 px on both sides and 42 px from the top, the title sits 12 px down, and the returned y is the card's bottom |
| Layout.Stack | monitor_status_lite/image_generator.py:64-98 | a column's first card starts at the column top and every later card starts 12 px below the previous card's bottom, with its given size |
| Layout.StackDrawsCards | monitor_status_lite/image_generator.py:113-128 | every stacked card is exactly the card `_draw_card` draws at its top: frame, title 12 px down and content box inset 18 px at the sides and 42 px from the top |
| Layout.StackBottom | monitor_status_lite/image_generator.py:64-98 | a column ends at its start plus the card heights plus one gap between each pair of cards |
| Layout.StackOrdered | monitor_status_lite/image_generator.py:64-98 | with non-negative heights, each card lies wholly above every later card in its column |
| Layout.Arrange | monitor_status_lite/image_generator.py:46-98 | the canvas is 1100 px wide with the computed height; four cards on the left and three on the right; the second left card is the resource card and the second right card the disk card, which has the computed height; the left column ends at 761 and the right at 404 plus the disk card height, which is at most 634 |
| Layout.ArrangementOnCanvas | monitor_status_lite/image_generator.py:46-98 | for every disk count every card lies on the canvas |
| Layout.ArrangementDisjoint | monitor_status_lite/image_generator.py:56-98 | for every disk count no two cards overlap |
| Layout.BarFill | monitor_status_lite/image_generator.py:281 | the fill is at least the minimum; above the minimum it is the truncated proportional width, and a proportional width that clears the minimum by a whole pixel is used; a non-positive percentage gives just the minimum; for a percentage within 0-100 it never exceeds the track, and at 100 % it equals the track |
| Layout.BarFillMonotone | monitor_status_lite/image_generator.py:281 | a higher percentage never gives a shorter fill |
| Layout.ProgressBar | monitor_status_lite/image_generator.py:264-289 | the track starts 50 px in and ends 30 px before the given width, and runs from the given y to 18 px below it; the fill shares its left edge, top and bottom and is as wide as the bar-fill rule with a 6 px minimum gives for the track width, so it stays inside the track for an in-range percentage; the label sits 8 px after the track |
| Layout.MiniBar | monitor_status_lite/image_generator.py:295-322 | the track starts 30 px in and ends 110 px before the given width, from 2 to 14 px below the row top; the fill shares its left edge and height and is as wide as the bar-fill rule with a 4 px minimum gives for the track width, so it stays inside the track for an in-range percentage; the label sits 6 px after the track |
| Dashboard.UsageColor | monitor_status_lite/image_generator.py:242-249 | green exactly below 60 %, amber exactly from 60 % to below 85 %, red exactly from 85 % |
| Dashboard.UsageColorMonotone | monitor_status_lite/image_generator.py:242-249 | higher usage is never shown in a milder colour |
| Dashboard.StatusColor | monitor_status_lite/image_generator.py:160 | green exactly for the running status, red for anything else |
| Dashboard.MonitorState | monitor_status_lite/image_generator.py:196-198 | the monitor line reads "运行中" in green exactly when the monitor runs, and otherwise "未运行" in red |
| Dashboard.RestartLabel | monitor_status_lite/image_generator.py:210-214 | the label reads "已关闭" exactly for a non-positive interval; otherwise it is "每 " and " 分钟" around digits without a leading zero that read back as the interval in whole minutes |
| Dashboard.StripBackslashes | monitor_status_lite/image_generator.py:183 | the shown mount point has no backslash, is no longer than the original, keeps every other character as often as the original has it, and is the original when that had none |
| Dashboard.StripAppend | monitor_status_lite/image_generator.py:183 | stripping works character by character, so it distributes over joined text |
| Dashboard.StripIdempotent | monitor_status_lite/image_generator.py:183 | stripping twice is stripping once |
| Dashboard.DiskRows | monitor_status_lite/image_generator.py:174-191 | the placeholder is drawn exactly when there are no disks; otherwise the first five disks, in order, each a mini bar 32 px below the previous row with its stripped mount point, usage colour, and used and total sizes |
| Dashboard.DiskRowsIgnoreTail | monitor_status_lite/image_generator.py:182 | disks after the fifth never change the card |
| Dashboard.Generate | monitor_status_lite/image_generator.py:43-98 | the image has the arrangement for its disk count; both resource bars are drawn in the resource card at the reported percentages, defaulting to 0, with matching usage colours; the disk rows are drawn from the reported disks in the disk card; the bot status text is the reported one or "未知", in the colour of that text, green exactly when running and red otherwise; the monitor is green exactly when reported running; the restart label is the one for the reported interval, off exactly for a non-positive or missing interval; the disk placeholder shows exactly without disks; the loaded plugin count is the reported one, zero when absent, and the enabled count the reported one or the loaded count |
| Dashboard.DrawCards | monitor_status_lite/image_generator.py:142-232 | for any arrangement, each card's content is drawn from the data into that card's content box: the two bars, the disk rows, the bot status and its colour, the monitor state, the restart label, and the loaded and enabled plugin counts |
| Dashboard.ResourceBarsInsideCard | monitor_status_lite/image_generator.py:142-151 | both resource bars lie inside the resource card, the RAM bar 45 px below the CPU bar, and an in-range usage never overruns its track |
| Dashboard.DiskRowsInsideCard | monitor_status_lite/image_generator.py:174-191 | every drawn disk row lies inside the disk card for every disk count |
| Dashboard.MissingStatusIsDanger | monitor_status_lite/image_generator.py:159-160 | a snapshot without a bot status shows "未知" in red |
| Dashboard.OtherStatusIsDanger | monitor_status_lite/image_generator.py:159-160 | a reported status other than "运行中" is shown as reported, in red |
| Dashboard.MonitorCard | monitor_status_lite/image_generator.py:196-198 | a missing or false monitor flag is shown as "未运行" in red; "运行中" in green exactly when it is true |
| Dashboard.PluginCard | monitor_status_lite/image_generator.py:231 | the plugin card shows the reported loaded count, zero when absent |
| StatusCommand.Elapsed | monitor_status_lite/plugin.py:136 | the time since boot is "N/A" exactly for a lapse of at least a second backwards, "0秒" for any lapse within a second of zero, and otherwise text that parses back to the components of the truncated seconds |
| StatusCommand.BotUptime | monitor_status_lite/plugin.py:153 | a failed process query shows "0秒"; an uptime of at least a second backwards shows "N/A", one within a second below zero "0秒"; a non-negative uptime gives text that parses back to the components of the truncated uptime |
| StatusCommand.SnapshotOf | monitor_status_lite/plugin.py:139-160 | the dashboard data carries the measured CPU and RAM percentages, the running bot status, no monitor fields, the collected disks, the loaded plugin count and the enabled count from the registry, which is at most the loaded count and equal to it exactly when all plugins are enabled |
| StatusCommand.Collect | monitor_status_lite/plugin.py:129-160 | the mapping carries the snapshot, the time since boot and the bot uptime above; memory and thread count come from the process query, or are zero when it failed |
| StatusCommand.ProcessFigures | monitor_status_lite/plugin.py:151-152 | memory and thread count are the process query's, or zero when the query failed |
| StatusCommand.FailedProcessQuery | monitor_status_lite/plugin.py:149-153 | when the process query fails the status data shows an uptime of "0秒", no memory and no threads |
| StatusCommand.Run | monitor_status_lite/plugin.py:162-192 | the image is sent exactly when rendering succeeds, with "状态图片已发送"; otherwise the text report with "状态信息已发送"; both answers are notable successes |
| StatusCommand.StatusDashboardFacts | monitor_status_lite/plugin.py:154-160 | the status dashboard always shows the bot running in green, the monitor not running in red and scheduled restart off, with the enabled count from the registry and no more enabled plugins than loaded ones |

## Left out

- Drawing itself (PIL image creation, fonts, rounded corners, PNG encoding, base64) and the header timestamp: only positions, sizes, colours and texts that the code decides are modelled.
- The label/value text rows (`_draw_info_row`, the system-info, bot-status and message-stats rows and their fixed offsets): they only place given strings.
- The operating-system queries (`psutil`, `platform`, `time`, `os.getpid`): their results are parameters. Only the queries the plugin guards with `try` can fail in the model, and their failure is a `None` value: the partition listing, a per-mount usage, the process query and a memory sample.
- `get_full_os_version`: it only forwards `platform` strings.
- Float rounding, and `:.0f`/`:.1f` number formatting in texts: values are exact reals.
- Asyncio: the recorder's one-minute sleep loop and concurrent access to the history. The model has one recorder step, `Record`.
- The host framework: command registration, aliases, the permission decorator and its deny messages, plugin metadata in `__init__.py`, and the send calls.
- The text of the `status` fallback report, the `sysinfo` overview and the `mhelp` help text. Their numeric parts reuse `format_duration` and `get_disk_info`, which are modelled.
- The text of the `mem` report. Its figures are modelled as the `Report` datatype. The low value is computed (line 255) but not printed.
- `Disks.LowerChar`: `str.lower` is modelled for ASCII letters only. The "cdrom" test is unaffected, because only ASCII letters lower to c, d, r, o and m.
- StatusCommand.Run: does not model the `status` command aborting without an answer. The CPU, RAM and boot-time reads, the `platform` calls, the plugin registry and the configuration reads in `execute` sit outside any `try`, so an exception there ends the command. The model keeps these reads as plain values in `Metrics`, and `Run` always answers.
- The image-failure notice sent before the text fallback (line 173 of plugin.py). `StatusCommand.Run` folds a missing generator and a raised exception into one flag, `renderOk`.

=== FILE: dashboard.dfy ===
/** What `MonitorImageGenerator.generate` decides besides geometry: the
    colour of every coloured value, the texts whose wording depends on the
    data, and the rows of the disk card. Pixels, fonts and PNG encoding are
    not modelled; the result is the list of these decisions. */
module Dashboard {
  import opened Wrappers
  import Decimal
  import Disks
  import Layout
  import Plugins

  /** The generator's palette entries whose choice depends on the data. */
  datatype Color = Success | Warning | Danger

  /** Severity of the three usage colours, for comparing them. */
  function Severity(c: Color): nat {
    match c
    case Success => 0
    case Warning => 1
    case Danger => 2
  }

  /** `_get_usage_color`: green below 60 %, amber below 85 %, red from 85 % on. */
  function UsageColor(percent: real): (c: Color)
    ensures c == Success <==> percent < 60.0
    ensures c == Warning <==> 60.0 <= percent < 85.0
    ensures c == Danger <==> 85.0 <= percent
  {
    if percent < 60.0 then Success
    else if percent < 85.0 then Warning
    else Danger
  }

  /** Higher usage is never shown in a milder colour. */
  lemma UsageColorMonotone(p: real, q: real)
    requires p <= q
    ensures Severity(UsageColor(p)) <= Severity(UsageColor(q))
  {
  }

  const Running: string := "运行中"

  /** The bot status shown, `'未知'` when the snapshot has none. */
  function BotStatusText(status: Option<string>): string {
    status.GetOr("未知")
  }

  /** `_draw_bot_status`: green exactly for the running status, red for anything else. */
  function StatusColor(status: string): (c: Color)
    ensures c == Success <==> status == Running
    ensures c == Danger <==> status != Running
  {
    if status == Running then Success else Danger
  }

  /** `_draw_monitor_stats`: the monitor line says running in green, or not running in red. */
  function MonitorState(running: bool): (out: (string, Color))
    ensures out.1 == Success <==> running
    ensures out.1 == Danger <==> !running
    ensures out.0 == Running <==> running
    ensures !running ==> out.0 == "未运行"
  {
    if running then (Running, Success) else ("未运行", Danger)
  }

  /** `_draw_monitor_stats`: the scheduled-restart value. */
  function RestartLabel(interval: int): (s: string)
    ensures s == "已关闭" <==> interval <= 0
    // a positive interval is its whole minutes, spelled without leading zeros, between the fixed words
    ensures interval > 0 ==>
              |s| > 5 && s[..2] == "每 " && s[|s| - 3..] == " 分钟" &&
              Decimal.Canonical(s[2..|s| - 3]) && Decimal.ToNat(s[2..|s| - 3]) == interval / 60
  {
    if interval > 0 then
      var digits := Decimal.FromNat(interval / 60);
      var s := "每 " + digits + " 分钟";
      assert s[0] == '每';
      assert s[2..|s| - 3] == digits;
      Decimal.ToNatFromNat(interval / 60);
      s
    else "已关闭"
  }

  // ---- disk card ----

  /** Every character other than a backslash occurs in `r` as often as in `s`. */
  predicate KeepsOthers(r: string, s: string) {
    forall c :: c != '\\' ==> multiset(r)[c] == multiset(s)[c]
  }

  /** The characters of `s` other than backslashes, in order. */
  function Kept(s: string): string
    decreases |s|
  {
    if s == [] then [] else (if s[0] == '\\' then [] else [s[0]]) + Kept(s[1..])
  }

  lemma {:induction false} KeptFacts(s: string)
    ensures '\\' !in Kept(s)
    ensures '\\' !in s ==> Kept(s) == s
    ensures |Kept(s)| <= |s|
    ensures KeepsOthers(Kept(s), s)
    decreases |s|
  {
    if s != [] {
      KeptFacts(s[1..]);
      assert s == [s[0]] + s[1..];
    }
  }

  lemma {:induction false} KeptAppend(a: string, b: string)
    ensures Kept(a + b) == Kept(a) + Kept(b)
    decreases |a|
  {
    if a == [] {
      assert a + b == b;
    } else {
      assert (a + b)[0] == a[0] && (a + b)[1..] == a[1..] + b;
      KeptAppend(a[1..], b);
    }
  }

  /** `mountpoint.replace('\\', '')`. */
  function StripBackslashes(s: string): (r: string)
    ensures '\\' !in r
    ensures '\\' !in s ==> r == s
    ensures |r| <= |s|
    ensures KeepsOthers(r, s)
  {
    KeptFacts(s);
    Kept(s)
  }

  /** Stripping works character by character, so the order of the kept
      characters is that of the mount point. */
  lemma StripAppend(a: string, b: string)
    ensures StripBackslashes(a + b) == StripBackslashes(a) + StripBackslashes(b)
  {
    KeptAppend(a, b);
  }

  /** Stripping twice is stripping once. */
  lemma StripIdempotent(s: string)
    ensures StripBackslashes(StripBackslashes(s)) == StripBackslashes(s)
  {
  }

  /** One drawn disk row: the label, the usage it shows, its bar and the
      used/total figures of the detail text. */
  datatype DiskRow = DiskRow(caption: string, percent: real, color: Color, bar: Layout.Bar,
                             usedGb: real, totalGb: real)

  /** The disk card's body: a placeholder text at the content origin, or rows. */
  datatype DiskPanel = Placeholder(x: int, y: int) | Rows(rows: seq<DiskRow>)

  function Min(a: int, b: int): int {
    if a < b then a else b
  }

  /** `_draw_disk_info` with the content box `(x, y, width)`. */
  function DiskRows(disks: seq<Disks.DiskEntry>, x: int, y: int, width: int): (p: DiskPanel)
    ensures p.Placeholder? <==> disks == []
    ensures p.Placeholder? ==> p == Placeholder(x, y)
    ensures p.Rows? ==> |p.rows| == Min(|disks|, Layout.MaxDiskRows)
    // rows follow the front of the list in order, one every 32 px
    ensures p.Rows? ==> forall i :: 0 <= i < |p.rows| ==>
              p.rows[i].caption == StripBackslashes(disks[i].mountpoint) &&
              '\\' !in p.rows[i].caption &&
              p.rows[i].percent == disks[i].percent &&
              p.rows[i].color == UsageColor(disks[i].percent) &&
              p.rows[i].usedGb == disks[i].usedGb && p.rows[i].totalGb == disks[i].totalGb &&
              p.rows[i].bar == Layout.MiniBar(x, y + 32 * i, width - 15, disks[i].percent)
  {
    if disks == [] then Placeholder(x, y)
    else
      var n := Min(|disks|, Layout.MaxDiskRows);
      Rows(seq(n, i requires 0 <= i < n =>
        var d := disks[i];
        DiskRow(StripBackslashes(d.mountpoint), d.percent, UsageColor(d.percent),
                Layout.MiniBar(x, y + 32 * i, width - 15, d.percent), d.usedGb, d.totalGb)))
  }

  /** Only the first five disks can be drawn: later entries never change the card. */
  lemma DiskRowsIgnoreTail(disks: seq<Disks.DiskEntry>, more: seq<Disks.DiskEntry>, x: int, y: int, width: int)
    requires |disks| >= Layout.MaxDiskRows
    ensures DiskRows(disks + more, x, y, width) == DiskRows(disks, x, y, width)
  {
    var a := DiskRows(disks + more, x, y, width);
    var b := DiskRows(disks, x, y, width);
    assert forall i :: 0 <= i < |disks| ==> (disks + more)[i] == disks[i];
    assert a.rows == b.rows;
  }

  // ---- the whole dashboard ----

  /** The data mapping handed to `generate`; absent keys take the defaults of
      the `data.get` calls. */
  datatype Snapshot = Snapshot(
    cpuPercent: Option<real>,
    ramPercent: Option<real>,
    disks: seq<Disks.DiskEntry>,
    botStatus: Option<string>,
    monitorRunning: Option<bool>,
    autoRestartInterval: Option<int>,
    pluginCount: Option<nat>,
    enabledPluginCount: Option<nat>)

  datatype Image = Image(
    layout: Layout.Arrangement,
    cpuBar: Layout.Bar, cpuColor: Color,
    ramBar: Layout.Bar, ramColor: Color,
    botStatus: string, botStatusColor: Color,
    monitorText: string, monitorColor: Color,
    restartLabel: string,
    diskPanel: DiskPanel,
    pluginsLoaded: nat, pluginsEnabled: nat)

  /** The card contents are drawn from the data into the cards' content
      boxes: both resource bars at their percentages, the disk rows, the
      bot status, the monitor state and the restart label. */
  predicate ContentsDrawn(img: Image, data: Snapshot) {
    |img.layout.left| > 1 && |img.layout.right| > 1 &&
    (var c := img.layout.left[1].content;
     img.cpuBar == Layout.ProgressBar(c.x, c.y, c.width - 15, data.cpuPercent.GetOr(0.0)) &&
     img.ramBar == Layout.ProgressBar(c.x, c.y + 45, c.width - 15, data.ramPercent.GetOr(0.0))) &&
    (var b := img.layout.right[1].content;
     img.diskPanel == DiskRows(data.disks, b.x, b.y, b.width)) &&
    img.botStatus == BotStatusText(data.botStatus) &&
    (img.monitorText, img.monitorColor) == MonitorState(data.monitorRunning.GetOr(false)) &&
    img.restartLabel == RestartLabel(data.autoRestartInterval.GetOr(0))
  }

  /** The content decisions of every card, drawn into the cards of `layout`. */
  function DrawCards(data: Snapshot, layout: Layout.Arrangement): (img: Image)
    requires |layout.left| == 4 && |layout.right| == 3
    ensures img.layout == layout
    ensures img.cpuColor == UsageColor(data.cpuPercent.GetOr(0.0))
    ensures img.ramColor == UsageColor(data.ramPercent.GetOr(0.0))
    ensures img.botStatusColor == StatusColor(img.botStatus)
    ensures img.pluginsLoaded == data.pluginCount.GetOr(0)
    ensures img.pluginsEnabled == Plugins.ShownEnabled(img.pluginsLoaded, data.enabledPluginCount)
    ensures ContentsDrawn(img, data)
  {
    var resource := layout.left[1].content;
    var diskBox := layout.right[1].content;
    var cpu := data.cpuPercent.GetOr(0.0);
    var ram := data.ramPercent.GetOr(0.0);
    var status := BotStatusText(data.botStatus);
    var monitor := MonitorState(data.monitorRunning.GetOr(false));
    var loaded := data.pluginCount.GetOr(0);
    Image(layout,
          Layout.ProgressBar(resource.x, resource.y, resource.width - 15, cpu), UsageColor(cpu),
          Layout.ProgressBar(resource.x, resource.y + 45, resource.width - 15, ram), UsageColor(ram),
          status, StatusColor(status),
          monitor.0, monitor.1,
          RestartLabel(data.autoRestartInterval.GetOr(0)),
          DiskRows(data.disks, diskBox.x, diskBox.y, diskBox.width),
          loaded, Plugins.ShownEnabled(loaded, data.enabledPluginCount))
  }

  /** The yes/no decisions the drawn cards show: the status and monitor
      colours, whether restart is off and whether the placeholder is drawn. */
  lemma DrawnDecisions(data: Snapshot, box: Layout.ContentBox)
    ensures StatusColor(BotStatusText(data.botStatus)) == Success <==> data.botStatus == Some(Running)
    ensures MonitorState(data.monitorRunning.GetOr(false)).1 == Success <==> data.monitorRunning == Some(true)
    ensures RestartLabel(data.autoRestartInterval.GetOr(0)) == "已关闭" <==> data.autoRestartInterval.GetOr(0) <= 0
    ensures DiskRows(data.disks, box.x, box.y, box.width).Placeholder? <==> data.disks == []
  {
  }

  /** `generate`: the layout for the disk count and the content decisions of every card. */
  function Generate(data: Snapshot): (img: Image)
    ensures img.layout == Layout.Arrange(|data.disks|)
    ensures img.layout.height == Layout.ImageHeight(|data.disks|)
    ensures img.cpuColor == UsageColor(data.cpuPercent.GetOr(0.0))
    ensures img.ramColor == UsageColor(data.ramPercent.GetOr(0.0))
    ensures img.botStatusColor == StatusColor(img.botStatus)
    ensures img.botStatusColor == Success <==> data.botStatus == Some(Running)
    ensures img.monitorColor == Success <==> data.monitorRunning == Some(true)
    ensures img.restartLabel == "已关闭" <==> data.autoRestartInterval.GetOr(0) <= 0
    ensures img.diskPanel.Placeholder? <==> data.disks == []
    ensures img.pluginsLoaded == data.pluginCount.GetOr(0)
    ensures img.pluginsEnabled == Plugins.ShownEnabled(img.pluginsLoaded, data.enabledPluginCount)
    ensures ContentsDrawn(img, data)
  {
    var layout := Layout.Arrange(|data.disks|);
    DrawnDecisions(data, layout.right[1].content);
    DrawCards(data, layout)
  }

  /** Both resource bars lie inside the resource card, one 45 px below the
      other, and an in-range usage never overruns its track. */
  lemma ResourceBarsInsideCard(data: Snapshot)
    ensures var img := Generate(data);
      var card := img.layout.left[1].frame;
      img.ramBar.track.top == img.cpuBar.track.top + 45 &&
      card.top < img.cpuBar.track.top && img.ramBar.track.bottom < card.bottom &&
      card.left < img.cpuBar.track.left && img.cpuBar.labelX < card.right &&
      card.left < img.ramBar.track.left && img.ramBar.labelX < card.right &&
      (0.0 <= data.cpuPercent.GetOr(0.0) <= 100.0 ==> img.cpuBar.fill.right <= img.cpuBar.track.right) &&
      (0.0 <= data.ramPercent.GetOr(0.0) <= 100.0 ==> img.ramBar.fill.right <= img.ramBar.track.right)
  {
    Layout.LeftFrames();
  }

  /** Every drawn disk row lies inside the disk card, whatever the disk
      count, and an in-range usage never overruns its track. */
  lemma DiskRowsInsideCard(data: Snapshot)
    ensures var img := Generate(data);
      var card := img.layout.right[1].frame;
      img.diskPanel.Rows? ==>
        forall i :: 0 <= i < |img.diskPanel.rows| ==>
          var bar := img.diskPanel.rows[i].bar;
          card.top < bar.track.top && bar.track.bottom < card.bottom &&
          card.left < bar.track.left && bar.labelX < card.right &&
          (0.0 <= img.diskPanel.rows[i].percent <= 100.0 ==> bar.fill.right <= bar.track.right)
  {
    var n := |data.disks|;
    Layout.RightFrames(n);
  }

  /** The status colour follows the text actually shown: a snapshot with
      no status shows "未知" in red. */
  lemma MissingStatusIsDanger(data: Snapshot)
    requires data.botStatus.None?
    ensures Generate(data).botStatus == "未知" && Generate(data).botStatusColor == Danger
  {
  }

  /** `_draw_bot_status`: a reported status other than the running one is
      shown as reported, in red. */
  lemma OtherStatusIsDanger(data: Snapshot)
    requires data.botStatus.Some? && data.botStatus.value != Running
    ensures Generate(data).botStatus == data.botStatus.value && Generate(data).botStatusColor == Danger
  {
  }

  /** `_draw_monitor_stats`: a missing or false monitor flag is shown as not running, in red. */
  lemma MonitorCard(data: Snapshot)
    ensures Generate(data).monitorColor == Danger <==> data.monitorRunning != Some(true)
    ensures Generate(data).monitorText == Running <==> data.monitorRunning == Some(true)
    ensures Generate(data).monitorText == "未运行" <==> data.monitorRunning != Some(true)
  {
  }

  /** `_draw_plugin_info`: the plugin card shows the reported loaded count, zero when
      none was reported. */
  lemma PluginCard(data: Snapshot)
    ensures Generate(data).pluginsLoaded == data.pluginCount.GetOr(0)
  {
  }
}

=== FILE: decimal.dfy ===
/** Decimal rendering of natural numbers, as Python's `f"{n}"` writes a
    non-negative `int`, together with the reading it inverts. */
module Decimal {

  predicate IsDigit(c: char) {
    '0' <= c <= '9'
  }

  predicate AllDigits(s: string) {
    forall i :: 0 <= i < |s| ==> IsDigit(s[i])
  }

  function DigitChar(d: nat): (c: char)
    requires d < 10
    ensures IsDigit(c)
    ensures c as int - '0' as int == d
  {
    ('0' as int + d) as char
  }

  function DigitValue(c: char): (d: nat)
    requires IsDigit(c)
    ensures d < 10
    ensures DigitChar(d) == c
  {
    c as int - '0' as int
  }

  /** The shortest decimal spelling of `n`: at least one digit, no leading zero. */
  function FromNat(n: nat): (s: string)
    ensures 1 <= |s|
    ensures AllDigits(s)
    ensures |s| > 1 ==> s[0] != '0'
    ensures n < 10 <==> |s| == 1
    decreases n
  {
    if n < 10 then [DigitChar(n)] else FromNat(n / 10) + [DigitChar(n % 10)]
  }

  /** The value a string of decimal digits denotes, read most significant first. */
  function ToNat(s: string): (n: nat)
    requires AllDigits(s)
    decreases |s|
  {
    if s == [] then 0 else 10 * ToNat(s[..|s| - 1]) + DigitValue(s[|s| - 1])
  }

  /** Reading back the rendering of `n` yields `n`. */
  lemma {:induction false} ToNatFromNat(n: nat)
    ensures ToNat(FromNat(n)) == n
    decreases n
  {
    var s := FromNat(n);
    if n >= 10 {
      ToNatFromNat(n / 10);
      assert s[..|s| - 1] == FromNat(n / 10);
    }
  }

  /** Rendering is injective: two numbers print the same only if they are equal. */
  lemma FromNatInjective(m: nat, n: nat)
    requires FromNat(m) == FromNat(n)
    ensures m == n
  {
    ToNatFromNat(m);
    ToNatFromNat(n);
  }

  /** A spelling `f"{n}"` can produce: digits only, and no leading zero. */
  predicate Canonical(s: string) {
    1 <= |s| && AllDigits(s) && (|s| > 1 ==> s[0] != '0')
  }

  /** Digits led by a non-zero digit denote a positive number. */
  lemma {:induction false} LeadingNonZeroPositive(s: string)
    requires 1 <= |s| && AllDigits(s) && s[0] != '0'
    ensures ToNat(s) >= 1
    decreases |s|
  {
    if |s| > 1 {
      var init := s[..|s| - 1];
      assert init[0] == s[0];
      LeadingNonZeroPositive(init);
    } else {
      assert DigitChar(0) == '0';
    }
  }

  /** Rendering the value of a canonical spelling gives that spelling back. */
  lemma {:induction false} FromNatToNat(s: string)
    requires Canonical(s)
    ensures FromNat(ToNat(s)) == s
    decreases |s|
  {
    var last := DigitValue(s[|s| - 1]);
    if |s| == 1 {
      assert ToNat(s) == last;
    } else {
      var init := s[..|s| - 1];
      assert init[0] == s[0];
      FromNatToNat(init);
      LeadingNonZeroPositive(init);
      var n := ToNat(s);
      assert n == 10 * ToNat(init) + last;
      assert n / 10 == ToNat(init) && n % 10 == last;
      assert s == init + [s[|s| - 1]];
    }
  }
}

=== FILE: disks.dfy ===
/** `get_disk_info`: the mounted partitions worth reporting, each with its
    usage figures. The partition listing and the per-mount usage query are
    operating-system calls and enter as inputs. */
module Disks {
  import opened Wrappers

  /** A partition as the listing reports it. */
  datatype Partition = Partition(mountpoint: string, fstype: string, opts: string)

  /** Usage of one mount in bytes, with the percentage the query reports. */
  datatype Usage = Usage(percent: real, total: nat, used: nat, free: nat)

  /** One reported disk, sizes in GiB. */
  datatype DiskEntry = DiskEntry(mountpoint: string, percent: real, totalGb: real, usedGb: real, freeGb: real)

  /** `str.lower` on one character (ASCII letters; no other character lowers
      to one of the letters of "cdrom"). */
  function LowerChar(c: char): (d: char)
    ensures 'A' <= c <= 'Z' ==> d as int == c as int + 32
    ensures !('A' <= c <= 'Z') ==> d == c
  {
    if 'A' <= c <= 'Z' then (c as int + 32) as char else c
  }

  function Lower(s: string): (r: string)
    ensures |r| == |s|
    ensures forall i :: 0 <= i < |s| ==> r[i] == LowerChar(s[i])
  {
    seq(|s|, i requires 0 <= i < |s| => LowerChar(s[i]))
  }

  /** `word` occurs in `s` at position `i`, letter case ignored on the `s` side. */
  ghost predicate OccursAtCi(s: string, word: string, i: int) {
    0 <= i && i + |word| <= |s| &&
    forall j :: 0 <= j < |word| ==> LowerChar(s[i + j]) == word[j]
  }

  /** `t` occurs in `s` at position `i`. */
  ghost predicate OccursAt(s: string, t: string, i: int) {
    0 <= i && i + |t| <= |s| && s[i..i + |t|] == t
  }

  /** Python's substring test `t in s`. */
  function Contains(s: string, t: string): (b: bool)
    ensures b <==> exists i :: OccursAt(s, t, i)
    decreases |s|
  {
    if |t| <= |s| && s[..|t|] == t then
      assert OccursAt(s, t, 0);
      true
    else if s == [] then
      false
    else
      var rest := Contains(s[1..], t);
      assert forall i :: OccursAt(s[1..], t, i) ==> OccursAt(s, t, i + 1) by {
        forall i | OccursAt(s[1..], t, i)
          ensures OccursAt(s, t, i + 1)
        {
          assert s[1..][i..i + |t|] == s[i + 1..i + 1 + |t|];
        }
      }
      assert forall i :: OccursAt(s, t, i) && i > 0 ==> OccursAt(s[1..], t, i - 1) by {
        forall i | OccursAt(s, t, i) && i > 0
          ensures OccursAt(s[1..], t, i - 1)
        {
          assert s[1..][i - 1..i - 1 + |t|] == s[i..i + |t|];
        }
      }
      assert !OccursAt(s, t, 0);
      rest
  }

  /** The mount options mark an optical drive: "cdrom" in any letter case. */
  function IsOptical(opts: string): (b: bool)
    ensures b <==> exists i :: OccursAtCi(opts, "cdrom", i)
  {
    var low := Lower(opts);
    var b := Contains(low, "cdrom");
    assert forall i :: OccursAt(low, "cdrom", i) <==> OccursAtCi(opts, "cdrom", i) by {
      forall i
        ensures OccursAt(low, "cdrom", i) <==> OccursAtCi(opts, "cdrom", i)
      {
        if 0 <= i && i + 5 <= |opts| {
          var w := low[i..i + 5];
          assert forall j :: 0 <= j < 5 ==> w[j] == LowerChar(opts[i + j]);
        }
      }
    }
    b
  }

  /** The skip rule of `get_disk_info`: optical drives and partitions without a
      file-system type are not reported. */
  predicate Skipped(p: Partition) {
    IsOptical(p.opts) || p.fstype == ""
  }

  const BytesPerGb: real := 1073741824.0

  /** The record `get_disk_info` builds for a partition and its usage. */
  function Entry(p: Partition, u: Usage): (e: DiskEntry)
    ensures e.mountpoint == p.mountpoint && e.percent == u.percent
    ensures e.totalGb * BytesPerGb == u.total as real
    ensures e.usedGb * BytesPerGb == u.used as real
    ensures e.freeGb * BytesPerGb == u.free as real
  {
    DiskEntry(p.mountpoint, u.percent, u.total as real / BytesPerGb,
              u.used as real / BytesPerGb, u.free as real / BytesPerGb)
  }

  /** The partition is reported: not skipped and its usage query succeeded
      (a query that raises is passed over). */
  predicate Reported(p: Partition, usage: Partition -> Option<Usage>) {
    !Skipped(p) && usage(p).Some?
  }

  /** The loop of `get_disk_info` over a partition listing, in listing order. */
  function Collect(parts: seq<Partition>, usage: Partition -> Option<Usage>): (r: seq<DiskEntry>)
    ensures |r| <= |parts|
    // nothing is invented: each entry is a reported partition's record
    ensures forall e :: e in r ==> exists p :: p in parts && Reported(p, usage) && e == Entry(p, usage(p).value)
    // nothing is lost: each reported partition has its record
    ensures forall p :: p in parts && Reported(p, usage) ==> Entry(p, usage(p).value) in r
    decreases |parts|
  {
    if parts == [] then []
    else
      var p := parts[0];
      var rest := Collect(parts[1..], usage);
      assert forall q :: q in parts[1..] ==> q in parts;
      assert forall q :: q in parts ==> q == p || q in parts[1..];
      if Reported(p, usage) then [Entry(p, usage(p).value)] + rest else rest
  }

  /** Collection works partition by partition: the listing order carries over
      to the entries. */
  lemma {:induction false} CollectAppend(a: seq<Partition>, b: seq<Partition>, usage: Partition -> Option<Usage>)
    ensures Collect(a + b, usage) == Collect(a, usage) + Collect(b, usage)
    decreases |a|
  {
    if a == [] {
      assert a + b == b;
    } else {
      assert (a + b)[0] == a[0];
      assert (a + b)[1..] == a[1..] + b;
      CollectAppend(a[1..], b, usage);
    }
  }

  /** A listing with only skipped partitions reports no disks. */
  lemma {:induction false} CollectSkipped(parts: seq<Partition>, usage: Partition -> Option<Usage>)
    requires forall i :: 0 <= i < |parts| ==> Skipped(parts[i])
    ensures Collect(parts, usage) == []
    decreases |parts|
  {
    if parts != [] {
      CollectSkipped(parts[1..], usage);
    }
  }

  /** `get_disk_info`: a listing that fails outright yields no disks. */
  function DiskInfo(listing: Option<seq<Partition>>, usage: Partition -> Option<Usage>): (r: seq<DiskEntry>)
    ensures listing.None? ==> r == []
    ensures listing.Some? ==> r == Collect(listing.value, usage)
  {
    match listing
    case None => []
    case Some(parts) => Collect(parts, usage)
  }

  /** The optical test does not depend on letter case. */
  lemma OpticalIgnoresCase(a: string, b: string)
    requires Lower(a) == Lower(b)
    ensures IsOptical(a) == IsOptical(b)
  {
  }
}

=== FILE: duration.dfy ===
/** `format_duration`: a second count rendered as at most three of its
    non-zero units (days, hours, minutes, seconds), most significant first,
    each as a decimal value followed by a Chinese unit suffix. */
module Duration {
  import opened Wrappers
  import Decimal

  datatype Unit = Days | Hours | Minutes | Seconds

  /** Position of a unit from most (0) to least (3) significant. */
  function Rank(u: Unit): nat {
    match u
    case Days => 0
    case Hours => 1
    case Minutes => 2
    case Seconds => 3
  }

  function UnitSeconds(u: Unit): nat {
    match u
    case Days => 86400
    case Hours => 3600
    case Minutes => 60
    case Seconds => 1
  }

  function Suffix(u: Unit): string {
    match u
    case Days => "天"
    case Hours => "小时"
    case Minutes => "分"
    case Seconds => "秒"
  }

  /** One rendered component: a value and its unit. */
  datatype Part = Part(value: nat, unit: Unit)

  /** A second count broken into calendar-free units. */
  datatype Breakdown = Breakdown(days: nat, hours: nat, minutes: nat, secs: nat) {

    function Get(u: Unit): nat {
      match u
      case Days => days
      case Hours => hours
      case Minutes => minutes
      case Seconds => secs
    }

    /** Every unit below days is under its carry limit. */
    predicate Normal() {
      hours < 24 && minutes < 60 && secs < 60
    }

    function Total(): nat {
      days * 86400 + hours * 3600 + minutes * 60 + secs
    }

    predicate AllNonZero() {
      days > 0 && hours > 0 && minutes > 0 && secs > 0
    }

    predicate NoLargeUnits() {
      days == 0 && hours == 0 && minutes == 0
    }
  }

  lemma DivMod(n: nat, d: nat)
    requires d > 0
    ensures n == n / d * d + n % d && 0 <= n % d < d
  {
  }

  lemma MulMono(a: int, b: int, d: nat)
    requires a <= b
    ensures a * d <= b * d
  {
  }

  /** Quotient and remainder are unique (used to pin the breakdown down). */
  lemma DivModUnique(n: nat, d: nat, q: nat, r: nat)
    requires d > 0 && r < d && n == q * d + r
    ensures q == n / d && r == n % d
  {
    DivMod(n, d);
    var q' := n / d;
    if q < q' {
      MulMono(q + 1, q', d);
    } else if q' < q {
      MulMono(q' + 1, q, d);
    }
  }

  /** The split `format_duration` starts with: whole days, then hours, minutes and seconds
      of what is left. */
  function Split(seconds: nat): (b: Breakdown)
    ensures b.Normal()
    ensures b.Total() == seconds
  {
    var days := seconds / 86400;
    var rest := seconds % 86400;
    DivMod(seconds, 86400);
    var hours := rest / 3600;
    var r2 := rest % 3600;
    DivMod(rest, 3600);
    var minutes := r2 / 60;
    var s := r2 % 60;
    DivMod(r2, 60);
    assert seconds == (days * 24 + hours) * 3600 + r2;
    DivModUnique(seconds, 3600, days * 24 + hours, r2);
    assert seconds == ((days * 24 + hours) * 60 + minutes) * 60 + s;
    DivModUnique(seconds, 60, (days * 24 + hours) * 60 + minutes, s);
    Breakdown(days, hours, seconds % 3600 / 60, seconds % 60)
  }

  /** A normal breakdown is determined by its total: `Split` is the only one. */
  lemma SplitUnique(b: Breakdown)
    requires b.Normal()
    ensures Split(b.Total()) == b
  {
    var n := b.Total();
    var inHour := b.minutes * 60 + b.secs;
    var inDay := b.hours * 3600 + inHour;
    DivModUnique(n, 86400, b.days, inDay);
    DivModUnique(inDay, 3600, b.hours, inHour);
    assert n == ((b.days * 24 + b.hours) * 60 + b.minutes) * 60 + b.secs;
    DivModUnique(n, 60, (b.days * 24 + b.hours) * 60 + b.minutes, b.secs);
    assert n == (b.days * 24 + b.hours) * 3600 + inHour;
    DivModUnique(n, 3600, b.days * 24 + b.hours, inHour);
  }

  /** `if keep: parts.append(p)`. */
  function AppendIf(ps: seq<Part>, keep: bool, p: Part): seq<Part> {
    if keep then ps + [p] else ps
  }

  /** The list `format_duration` builds: every non-zero unit in order, with the
      seconds forced when nothing before it was kept. */
  function Candidates(b: Breakdown): seq<Part> {
    var withDays := AppendIf([], b.days > 0, Part(b.days, Days));
    var withHours := AppendIf(withDays, b.hours > 0, Part(b.hours, Hours));
    var withMinutes := AppendIf(withHours, b.minutes > 0, Part(b.minutes, Minutes));
    AppendIf(withMinutes, b.secs > 0 || withMinutes == [], Part(b.secs, Seconds))
  }

  /** Python's `parts[:3]`. */
  function TakeThree(ps: seq<Part>): (r: seq<Part>)
    ensures |r| == if |ps| < 3 then |ps| else 3
    ensures r == ps[..|r|]
  {
    if |ps| <= 3 then ps else ps[..3]
  }

  /** Units strictly descend in significance along the sequence. */
  predicate Descending(ps: seq<Part>) {
    forall i, j :: 0 <= i < j < |ps| ==> Rank(ps[i].unit) < Rank(ps[j].unit)
  }

  /** Seconds the components stand for together. */
  function Sum(ps: seq<Part>): nat {
    if ps == [] then 0 else ps[0].value * UnitSeconds(ps[0].unit) + Sum(ps[1..])
  }

  /** Every component carries its unit's value, and only the forced seconds
      of a sub-minute breakdown may be zero. */
  predicate Faithful(ps: seq<Part>, b: Breakdown) {
    forall i :: 0 <= i < |ps| ==>
      ps[i].value == b.Get(ps[i].unit) &&
      (ps[i].value == 0 ==> ps[i].unit == Seconds && b.NoLargeUnits())
  }

  /** Every unit in `ps` is more significant than rank `k`. */
  predicate Above(ps: seq<Part>, k: nat) {
    forall i :: 0 <= i < |ps| ==> Rank(ps[i].unit) < k
  }

  lemma Extend(ps: seq<Part>, b: Breakdown, u: Unit, keep: bool)
    requires Descending(ps) && Faithful(ps, b) && Above(ps, Rank(u))
    requires keep ==> b.Get(u) > 0 || (u == Seconds && b.NoLargeUnits())
    ensures Descending(AppendIf(ps, keep, Part(b.Get(u), u)))
    ensures Faithful(AppendIf(ps, keep, Part(b.Get(u), u)), b)
    ensures Above(AppendIf(ps, keep, Part(b.Get(u), u)), Rank(u) + 1)
  {
  }

  /** The list before truncation is ordered and faithful to the breakdown. */
  lemma CandidatesFaithful(b: Breakdown)
    ensures 1 <= |Candidates(b)| <= 4
    ensures Descending(Candidates(b)) && Faithful(Candidates(b), b)
  {
    var d := AppendIf([], b.days > 0, Part(b.days, Days));
    var dh := AppendIf(d, b.hours > 0, Part(b.hours, Hours));
    var dhm := AppendIf(dh, b.minutes > 0, Part(b.minutes, Minutes));
    Extend([], b, Days, b.days > 0);
    Extend(d, b, Hours, b.hours > 0);
    Extend(dh, b, Minutes, b.minutes > 0);
    assert dhm == [] ==> b.NoLargeUnits();
    Extend(dhm, b, Seconds, b.secs > 0 || dhm == []);
  }

  /** The two extreme shapes of the list before truncation. */
  lemma CandidatesExtremes(b: Breakdown)
    ensures b.NoLargeUnits() ==> Candidates(b) == [Part(b.secs, Seconds)]
    ensures b.AllNonZero() ==>
              Candidates(b) == [Part(b.days, Days), Part(b.hours, Hours), Part(b.minutes, Minutes), Part(b.secs, Seconds)]
    ensures !b.AllNonZero() ==> |Candidates(b)| <= 3
  {
    var d := if b.days > 0 then 1 else 0;
    var h := if b.hours > 0 then 1 else 0;
    var m := if b.minutes > 0 then 1 else 0;
    var s := if b.secs > 0 || d + h + m == 0 then 1 else 0;
    assert |Candidates(b)| == d + h + m + s;
  }

  /** The components shown for a breakdown: the first three candidates. */
  function Shown(b: Breakdown): (r: seq<Part>)
    ensures 1 <= |r| <= 3
    ensures Descending(r)
    ensures Faithful(r, b)
    ensures b.NoLargeUnits() ==> r == [Part(b.secs, Seconds)]
    ensures b.AllNonZero() ==> r == [Part(b.days, Days), Part(b.hours, Hours), Part(b.minutes, Minutes)]
  {
    CandidatesFaithful(b);
    CandidatesExtremes(b);
    TakeThree(Candidates(b))
  }

  /** A non-zero unit is missing from the shown components only when it is the
      seconds cut off by the three-part truncation. */
  lemma ShownComplete(b: Breakdown, u: Unit)
    requires b.Get(u) > 0
    requires !(u == Seconds && b.AllNonZero())
    ensures exists i :: 0 <= i < |Shown(b)| && Shown(b)[i].unit == u
  {
    var r := Shown(b);

    match u
    case Days => assert r[0].unit == Days;
    case Hours =>
      if b.days > 0 { assert r[1].unit == Hours; } else { assert r[0].unit == Hours; }
    case Minutes =>
      if b.days > 0 && b.hours > 0 { assert r[2].unit == Minutes; }
      else if b.days > 0 || b.hours > 0 { assert r[1].unit == Minutes; }
      else { assert r[0].unit == Minutes; }
    case Seconds =>
      var k := (if b.days > 0 then 1 else 0) + (if b.hours > 0 then 1 else 0) + (if b.minutes > 0 then 1 else 0);
      assert k <= 2;
      assert r[k].unit == Seconds;
  }

  /** The components that `format_duration` renders for a non-negative count. */
  function PartsOf(seconds: nat): (r: seq<Part>)
    ensures 1 <= |r| <= 3
    ensures Descending(r)
    // every component carries the value of its unit in the breakdown
    ensures forall i :: 0 <= i < |r| ==> r[i].value == Split(seconds).Get(r[i].unit)
    // a zero component is only ever the forced seconds of a sub-minute count
    ensures forall i :: 0 <= i < |r| && r[i].value == 0 ==>
              r[i].unit == Seconds && seconds < 60
    ensures seconds < 60 ==> r == [Part(seconds, Seconds)]
    ensures Split(seconds).AllNonZero() ==> |r| == 3 && r[2].unit == Minutes
  {
    var b := Split(seconds);
    assert b.NoLargeUnits() <==> seconds < 60;
    Shown(b)
  }

  lemma SumAppendIf(ps: seq<Part>, keep: bool, p: Part)
    ensures Sum(AppendIf(ps, keep, p)) == Sum(ps) + (if keep then p.value * UnitSeconds(p.unit) else 0)
  {
    if keep {
      SumAppend(ps, [p]);
      assert Sum([p]) == p.value * UnitSeconds(p.unit) + Sum([]);
    }
  }

  /** What the shown components lose: nothing, unless all four units are
      non-zero, and then only the seconds. */
  lemma {:induction false} PartsApproximate(seconds: nat)
    ensures Sum(PartsOf(seconds)) <= seconds < Sum(PartsOf(seconds)) + 60
    ensures Sum(PartsOf(seconds)) == seconds <==> !Split(seconds).AllNonZero()
  {
    var b := Split(seconds);
    var d := AppendIf([], b.days > 0, Part(b.days, Days));
    var dh := AppendIf(d, b.hours > 0, Part(b.hours, Hours));
    var dhm := AppendIf(dh, b.minutes > 0, Part(b.minutes, Minutes));
    var c := AppendIf(dhm, b.secs > 0 || dhm == [], Part(b.secs, Seconds));
    assert Sum([]) == 0;
    SumAppendIf([], b.days > 0, Part(b.days, Days));
    SumAppendIf(d, b.hours > 0, Part(b.hours, Hours));
    SumAppendIf(dh, b.minutes > 0, Part(b.minutes, Minutes));
    SumAppendIf(dhm, b.secs > 0 || dhm == [], Part(b.secs, Seconds));
    assert Sum(c) == seconds;
    CandidatesExtremes(b);
    if b.AllNonZero() {
      assert PartsOf(seconds) == dhm;
      assert Sum(dhm) == seconds - b.secs;
    } else {
      assert PartsOf(seconds) == c;
    }
  }

  lemma {:induction false} SumAppend(a: seq<Part>, b: seq<Part>)
    ensures Sum(a + b) == Sum(a) + Sum(b)
    decreases |a|
  {
    if a != [] {
      assert (a + b)[1..] == a[1..] + b;
      SumAppend(a[1..], b);
    } else {
      assert a + b == b;
    }
  }

  /** One component as text, `f"{value}{suffix}"`. */
  function RenderPart(p: Part): string {
    Decimal.FromNat(p.value) + Suffix(p.unit)
  }

  /** The components joined with no separator (`"".join(...)`). */
  function Render(ps: seq<Part>): string {
    if ps == [] then "" else RenderPart(ps[0]) + Render(ps[1..])
  }

  /** `format_duration`: "N/A" for a negative count, the rendered components otherwise. */
  function Format(seconds: int): (s: string)
    ensures s == "N/A" <==> seconds < 0
    ensures seconds >= 0 ==> Parse(s) == Some(PartsOf(seconds))
  {
    if seconds < 0 then "N/A"
    else
      var ps := PartsOf(seconds);
      ParseRender(ps);
      assert Render(ps) == RenderPart(ps[0]) + Render(ps[1..]);
      assert Render(ps)[0] == Decimal.FromNat(ps[0].value)[0];
      Render(ps)
  }

  // ---- reading a rendered duration back ----

  /** Number of leading decimal digits of `s`. */
  function DigitRun(s: string): (n: nat)
    ensures n <= |s|
    ensures Decimal.AllDigits(s[..n])
    ensures n < |s| ==> !Decimal.IsDigit(s[n])
  {
    if s == [] || !Decimal.IsDigit(s[0]) then 0
    else
      var n := 1 + DigitRun(s[1..]);
      assert s[..n] == [s[0]] + s[1..][..n - 1];
      n
  }

  /** The unit whose suffix starts `s`, with the suffix length. */
  function ParseUnit(s: string): Option<(Unit, nat)> {
    if |s| >= 1 && s[0] == '天' then Some((Days, 1))
    else if |s| >= 2 && s[0] == '小' && s[1] == '时' then Some((Hours, 2))
    else if |s| >= 1 && s[0] == '分' then Some((Minutes, 1))
    else if |s| >= 1 && s[0] == '秒' then Some((Seconds, 1))
    else None
  }

  /** Reads a concatenation of `digits suffix` components. */
  function Parse(s: string): Option<seq<Part>>
    decreases |s|
  {
    if s == [] then Some([])
    else
      var n := DigitRun(s);
      // Python writes no leading zero, so a run like "05" is not a number it printed
      if n == 0 || (n > 1 && s[0] == '0') then None
      else
        match ParseUnit(s[n..])
        case None => None
        case Some(unitLen) =>
          if n + unitLen.1 > |s| || unitLen.1 == 0 then None
          else
            match Parse(s[n + unitLen.1..])
            case None => None
            case Some(rest) => Some([Part(Decimal.ToNat(s[..n]), unitLen.0)] + rest)
  }

  lemma DigitRunOfRendered(digits: string, tail: string)
    requires Decimal.AllDigits(digits)
    requires tail == [] || !Decimal.IsDigit(tail[0])
    ensures DigitRun(digits + tail) == |digits|
    decreases |digits|
  {
    if digits != [] {
      assert (digits + tail)[1..] == digits[1..] + tail;
      DigitRunOfRendered(digits[1..], tail);
    } else {
      assert digits + tail == tail;
    }
  }

  /** A unit's suffix is recognised in front of any text. */
  lemma ParseUnitOfSuffix(u: Unit, tail: string)
    ensures ParseUnit(Suffix(u) + tail) == Some((u, |Suffix(u)|))
  {
  }

  lemma SliceJoin(a: string, b: string)
    ensures (a + b)[..|a|] == a && (a + b)[|a|..] == b
  {
  }

  /** One parsing step: a digit run and a suffix in front of `tail`. */
  lemma ParseStep(digits: string, u: Unit, tail: string)
    requires |digits| > 0 && Decimal.AllDigits(digits)
    requires |digits| > 1 ==> digits[0] != '0'
    ensures Parse(digits + (Suffix(u) + tail)) ==
      match Parse(tail)
      case None => None
      case Some(rest) => Some([Part(Decimal.ToNat(digits), u)] + rest)
  {
    var s := digits + (Suffix(u) + tail);
    DigitRunOfRendered(digits, Suffix(u) + tail);
    SliceJoin(digits, Suffix(u) + tail);
    SliceJoin(Suffix(u), tail);
    assert s[|digits| + |Suffix(u)|..] == (Suffix(u) + tail)[|Suffix(u)|..];
    ParseUnitOfSuffix(u, tail);
  }

  /** Parsing the rendering of any component list gives the list back. */
  lemma {:induction false} ParseRender(ps: seq<Part>)
    ensures Parse(Render(ps)) == Some(ps)
    decreases |ps|
  {
    if ps != [] {
      var p := ps[0];
      var digits := Decimal.FromNat(p.value);
      assert Render(ps) == digits + (Suffix(p.unit) + Render(ps[1..]));
      ParseStep(digits, p.unit, Render(ps[1..]));
      Decimal.ToNatFromNat(p.value);
      ParseRender(ps[1..]);
      assert [Part(p.value, p.unit)] + ps[1..] == ps;
    }
  }

  /** A unit recognised by `ParseUnit` is spelled by its suffix. */
  lemma ParseUnitSpelled(t: string)
    requires ParseUnit(t).Some?
    ensures var (u, len) := ParseUnit(t).value;
      len == |Suffix(u)| <= |t| && t[..len] == Suffix(u)
  {
  }

  /** The first step of a successful parse: a canonical digit run, a suffix,
      and a rest that parses on its own. */
  lemma ParseHead(s: string)
    requires s != [] && Parse(s).Some?
    ensures var n := DigitRun(s);
      1 <= n <= |s| && Decimal.Canonical(s[..n]) && ParseUnit(s[n..]).Some? &&
      n + ParseUnit(s[n..]).value.1 <= |s| &&
      var rest := s[n + ParseUnit(s[n..]).value.1..];
      Parse(rest).Some? &&
      Parse(s).value == [Part(Decimal.ToNat(s[..n]), ParseUnit(s[n..]).value.0)] + Parse(rest).value
  {
  }

  lemma SplitThree(s: string, n: nat, k: nat)
    requires n <= k <= |s|
    ensures s == s[..n] + s[n..][..k - n] + s[k..]
  {
  }

  /** Parsing loses nothing either: any text `Parse` accepts is the
      rendering of the components it returns. */
  lemma {:induction false} RenderParse(s: string)
    requires Parse(s).Some?
    ensures Render(Parse(s).value) == s
    decreases |s|
  {
    if s != [] {
      ParseHead(s);
      var n := DigitRun(s);
      var digits := s[..n];
      ParseUnitSpelled(s[n..]);
      var u := ParseUnit(s[n..]).value.0;
      var len := ParseUnit(s[n..]).value.1;
      var rest := s[n + len..];
      var ps := Parse(s).value;
      var tail := Parse(rest).value;
      RenderParse(rest);
      Decimal.FromNatToNat(digits);
      assert ps == [Part(Decimal.ToNat(digits), u)] + tail;
      assert ps[0] == Part(Decimal.ToNat(digits), u);
      assert ps[1..] == tail;
      assert RenderPart(ps[0]) == digits + s[n..][..len];
      SplitThree(s, n, n + len);
    }
  }

  /** Two texts that parse to the same components are the same text, so a
      contract stating what a text parses to fixes the text itself. */
  lemma ParseInjective(s: string, t: string)
    requires Parse(s).Some? && Parse(s) == Parse(t)
    ensures s == t
  {
    RenderParse(s);
    RenderParse(t);
  }

  lemma RenderSingle(p: Part)
    ensures Render([p]) == RenderPart(p)
  {
    assert [p][1..] == [];
    assert Render([p]) == RenderPart(p) + Render([]);
  }

  lemma RenderZeroSeconds()
    ensures Render([Part(0, Seconds)]) == "0秒"
  {
    var p := Part(0, Seconds);
    RenderSingle(p);
    assert Decimal.FromNat(0) == "0";
    assert Suffix(Seconds) == "秒";
    assert RenderPart(p) == "0" + "秒";
    ZeroSecondsText();
  }

  lemma ZeroSecondsText()
    ensures "0" + "秒" == "0秒"
  {
  }

  lemma RenderZero()
    ensures Render(PartsOf(0)) == "0秒"
  {
    assert PartsOf(0) == [Part(0, Seconds)];
    RenderZeroSeconds();
  }

  /** A zero count is shown as zero seconds, the one case where a zero
      component appears. */
  lemma ZeroFormatsAsZeroSeconds()
    ensures Format(0) == "0秒"
  {
    RenderZero();
  }
}

=== FILE: layout.dfy ===
/** The dashboard geometry of `MonitorImageGenerator`: canvas size, the
    two card columns, each card's frame and content box, and the widths of
    the progress bars drawn inside them. Rectangles carry the corner
    coordinates handed to the drawing library, `[x, y, x + w, y + h]`. */
module Layout {
  import Numbers

  const Width: int := 1100
  const BaseHeight: int := 920
  const CardMargin: int := 25
  const CardGap: int := 12
  /** Top of both card columns, below the header. */
  const ColumnTop: int := 80
  /** Disk rows drawn at most. */
  const MaxDiskRows: nat := 5
  /** Extra canvas height per disk beyond the third. */
  const DiskRowHeight: int := 35

  // ---- canvas and disk card height ----

  /** `max(35 * min(n, 5) + 55, 90)`. */
  function DiskCardHeight(diskCount: nat): (h: int)
    ensures 90 <= h <= 230
    ensures diskCount <= 1 ==> h == 90
    ensures 1 <= diskCount <= MaxDiskRows ==> h == 35 * diskCount + 55
    ensures diskCount >= MaxDiskRows ==> h == 230
  {
    var rows := if diskCount < MaxDiskRows then diskCount else MaxDiskRows;
    var h := DiskRowHeight * rows + 55;
    if h > 90 then h else 90
  }

  /** More disks never shrink the disk card. */
  lemma DiskCardHeightMonotone(m: nat, n: nat)
    requires m <= n
    ensures DiskCardHeight(m) <= DiskCardHeight(n)
  {
  }

  /** `920 + max(0, (n - 3) * 35)`. */
  function ImageHeight(diskCount: nat): (h: int)
    ensures h >= BaseHeight
    ensures diskCount <= 3 ==> h == BaseHeight
    ensures diskCount >= 3 ==> h == BaseHeight + DiskRowHeight * (diskCount - 3)
  {
    var extra := (diskCount - 3) * DiskRowHeight;
    BaseHeight + (if extra > 0 then extra else 0)
  }

  /** Beyond three disks each further disk adds one row height to the canvas. */
  lemma ImageHeightStep(n: nat)
    requires n >= 3
    ensures ImageHeight(n + 1) == ImageHeight(n) + DiskRowHeight
  {
  }

  // ---- columns and cards ----

  const CardWidth: int := (Width - CardMargin * 3) / 2
  const LeftX: int := CardMargin
  const RightX: int := CardMargin * 2 + CardWidth

  /** The two columns sit side by side inside the canvas with a margin between. */
  lemma ColumnsFit()
    ensures CardWidth == 512 && RightX == 562
    ensures 0 < LeftX && LeftX + CardWidth < RightX && RightX + CardWidth <= Width
  {
  }

  datatype Rect = Rect(left: int, top: int, right: int, bottom: int)

  /** Two rectangles share no pixel (corners are inclusive). */
  predicate Disjoint(a: Rect, b: Rect) {
    a.right < b.left || b.right < a.left || a.bottom < b.top || b.bottom < a.top
  }

  predicate Within(a: Rect, width: int, height: int) {
    0 <= a.left <= a.right <= width && 0 <= a.top <= a.bottom <= height
  }

  /** The area a card hands to its content drawer: origin and usable width. */
  datatype ContentBox = ContentBox(x: int, y: int, width: int)

  datatype CardKind =
    | SystemInfo | ResourceUsage | MonitorStats | MessageStats
    | BotStatus | DiskSpace | PluginInfo

  datatype Card = Card(kind: CardKind, frame: Rect, titleX: int, titleY: int, content: ContentBox)

  /** `_draw_card`: the card and the `y + height` it returns. */
  function DrawCard(kind: CardKind, x: int, y: int, width: int, height: int): (out: (Card, int))
    ensures out.0.kind == kind
    ensures out.0.frame == Rect(x, y, x + width, y + height)
    // the returned coordinate is the card's bottom edge
    ensures out.1 == out.0.frame.bottom
    // content is inset 18 px on both sides, below the 42 px title band
    ensures out.0.content.x - out.0.frame.left == 18
    ensures out.0.frame.right - (out.0.content.x + out.0.content.width) == 18
    ensures out.0.content.y == out.0.frame.top + 42
    ensures out.0.titleX == out.0.content.x && out.0.titleY == y + 12
  {
    (Card(kind, Rect(x, y, x + width, y + height), x + 18, y + 12, ContentBox(x + 18, y + 42, width - 36)),
     y + height)
  }

  /** Total of a list of heights. */
  function Total(hs: seq<int>): int {
    if hs == [] then 0 else hs[0] + Total(hs[1..])
  }

  /** A column drawn top-down from `y`, each card starting `CardGap` below
      the bottom the previous `_draw_card` returned. */
  function Stack(x: int, y: int, width: int, specs: seq<(CardKind, int)>): (cards: seq<Card>)
    ensures |cards| == |specs|
    ensures forall i :: 0 <= i < |cards| ==>
              cards[i].kind == specs[i].0 &&
              cards[i].frame.left == x && cards[i].frame.right == x + width &&
              cards[i].frame.bottom - cards[i].frame.top == specs[i].1
    ensures |cards| > 0 ==> cards[0].frame.top == y
    ensures forall i :: 0 < i < |cards| ==> cards[i].frame.top == cards[i - 1].frame.bottom + CardGap
    decreases |specs|
  {
    if specs == [] then []
    else
      var (card, bottom) := DrawCard(specs[0].0, x, y, width, specs[0].1);
      [card] + Stack(x, bottom + CardGap, width, specs[1..])
  }

  /** Every stacked card is the one `_draw_card` draws at its top: title
      and content box included, not just the frame. */
  lemma {:induction false} StackDrawsCards(x: int, y: int, width: int, specs: seq<(CardKind, int)>)
    ensures var cards := Stack(x, y, width, specs);
      forall i :: 0 <= i < |cards| ==>
        cards[i] == DrawCard(specs[i].0, x, cards[i].frame.top, width, specs[i].1).0
    decreases |specs|
  {
    if specs != [] {
      var bottom := DrawCard(specs[0].0, x, y, width, specs[0].1).1;
      StackDrawsCards(x, bottom + CardGap, width, specs[1..]);
    }
  }

  function Heights(specs: seq<(CardKind, int)>): (hs: seq<int>)
    ensures |hs| == |specs|
    ensures forall i :: 0 <= i < |specs| ==> hs[i] == specs[i].1
  {
    seq(|specs|, i requires 0 <= i < |specs| => specs[i].1)
  }

  /** The bottom of a column is its start plus the card heights plus the gaps. */
  lemma {:induction false} StackBottom(x: int, y: int, width: int, specs: seq<(CardKind, int)>)
    requires |specs| > 0
    ensures Stack(x, y, width, specs)[|specs| - 1].frame.bottom ==
            y + Total(Heights(specs)) + CardGap * (|specs| - 1)
    decreases |specs|
  {
    if |specs| > 1 {
      var rest := specs[1..];
      StackBottom(x, y + specs[0].1 + CardGap, width, rest);
      assert Heights(specs)[1..] == Heights(rest);
    }
  }

  /** Cards chained `CardGap` apart with no negative height. */
  predicate Chained(cards: seq<Card>) {
    (forall i :: 0 < i < |cards| ==> cards[i].frame.top == cards[i - 1].frame.bottom + CardGap) &&
    (forall i :: 0 <= i < |cards| ==> cards[i].frame.top <= cards[i].frame.bottom)
  }

  lemma {:induction false} ChainBelow(cards: seq<Card>, i: nat, j: nat)
    requires Chained(cards) && i < j < |cards|
    ensures cards[i].frame.bottom < cards[j].frame.top
    decreases j - i
  {
    if j > i + 1 {
      ChainBelow(cards, i, j - 1);
    }
  }

  lemma StackChained(x: int, y: int, width: int, specs: seq<(CardKind, int)>)
    requires forall i :: 0 <= i < |specs| ==> specs[i].1 >= 0
    ensures Chained(Stack(x, y, width, specs))
  {
    var cards := Stack(x, y, width, specs);
    forall i | 0 <= i < |cards|
      ensures cards[i].frame.top <= cards[i].frame.bottom
    {
      assert cards[i].frame.bottom - cards[i].frame.top == specs[i].1;
    }
  }

  /** With no negative heights, a card lies wholly above every later card in its column. */
  lemma StackOrdered(x: int, y: int, width: int, specs: seq<(CardKind, int)>)
    requires forall i :: 0 <= i < |specs| ==> specs[i].1 >= 0
    ensures var cards := Stack(x, y, width, specs);
      forall i, j :: 0 <= i < j < |cards| ==> cards[i].frame.bottom < cards[j].frame.top
    ensures var cards := Stack(x, y, width, specs);
      forall i :: 0 <= i < |cards| ==> y <= cards[i].frame.top
  {
    var cards := Stack(x, y, width, specs);
    StackChained(x, y, width, specs);
    forall i, j | 0 <= i < j < |cards|
      ensures cards[i].frame.bottom < cards[j].frame.top
    {
      ChainBelow(cards, i, j);
    }
    forall i | 0 < i < |cards|
      ensures y <= cards[i].frame.top
    {
      ChainBelow(cards, 0, i);
    }
  }

  // ---- the dashboard arrangement ----

  function LeftColumn(): seq<(CardKind, int)> {
    [(SystemInfo, 180), (ResourceUsage, 165), (MonitorStats, 195), (MessageStats, 105)]
  }

  function RightColumn(diskCount: nat): seq<(CardKind, int)> {
    [(BotStatus, 195), (DiskSpace, DiskCardHeight(diskCount)), (PluginInfo, 105)]
  }

  datatype Arrangement = Arrangement(width: int, height: int, left: seq<Card>, right: seq<Card>) {
    function Cards(): seq<Card> {
      left + right
    }
  }

  /** The left column's frames, top to bottom. */
  lemma LeftFrames()
    ensures var cards := Stack(LeftX, ColumnTop, CardWidth, LeftColumn());
      |cards| == 4 &&
      cards[0].frame == Rect(25, 80, 537, 260) && cards[1].frame == Rect(25, 272, 537, 437) &&
      cards[2].frame == Rect(25, 449, 537, 644) && cards[3].frame == Rect(25, 656, 537, 761)
  {
    ColumnsFit();
  }

  /** The right column's frames, top to bottom, for a disk card of height `d`. */
  lemma RightFrames(diskCount: nat)
    ensures var d := DiskCardHeight(diskCount);
      var cards := Stack(RightX, ColumnTop, CardWidth, RightColumn(diskCount));
      |cards| == 3 &&
      cards[0].frame == Rect(562, 80, 1074, 275) && cards[1].frame == Rect(562, 287, 1074, 287 + d) &&
      cards[2].frame == Rect(562, 299 + d, 1074, 404 + d)
  {
    ColumnsFit();
  }

  /** The layout part of `generate` for a given number of disks. */
  function Arrange(diskCount: nat): (a: Arrangement)
    ensures a.width == Width && a.height == ImageHeight(diskCount)
    ensures |a.left| == 4 && |a.right| == 3
    ensures a.left[1].kind == ResourceUsage && a.right[1].kind == DiskSpace
    ensures a.right[1].frame.bottom - a.right[1].frame.top == DiskCardHeight(diskCount)
    // the two column bottoms: fixed on the left, growing with the disk card on the right
    ensures a.left[3].frame.bottom == 761
    ensures a.right[2].frame.bottom == 404 + DiskCardHeight(diskCount) <= 634
  {
    LeftFrames();
    RightFrames(diskCount);
    Arrangement(Width, ImageHeight(diskCount),
                Stack(LeftX, ColumnTop, CardWidth, LeftColumn()),
                Stack(RightX, ColumnTop, CardWidth, RightColumn(diskCount)))
  }

  /** Cards of the arrangement: the left column, then the right. */
  lemma CardsOfArrangement(diskCount: nat)
    ensures var a := Arrange(diskCount);
      |a.Cards()| == 7 &&
      (forall i :: 0 <= i < 4 ==> a.Cards()[i] == a.left[i]) &&
      (forall i :: 4 <= i < 7 ==> a.Cards()[i] == a.right[i - 4])
  {
  }

  /** For every disk count, every card lies on the canvas. */
  lemma ArrangementOnCanvas(diskCount: nat)
    ensures var a := Arrange(diskCount);
      forall i :: 0 <= i < |a.Cards()| ==> Within(a.Cards()[i].frame, a.width, a.height)
  {
    LeftOnCanvas(diskCount);
    RightOnCanvas(diskCount);
    CardsOfArrangement(diskCount);
  }

  lemma LeftOnCanvas(diskCount: nat)
    ensures var a := Arrange(diskCount);
      forall i :: 0 <= i < 4 ==> Within(a.left[i].frame, a.width, a.height)
  {
    LeftFrames();
  }

  lemma RightOnCanvas(diskCount: nat)
    ensures var a := Arrange(diskCount);
      forall i :: 0 <= i < 3 ==> Within(a.right[i].frame, a.width, a.height)
  {
    RightFrames(diskCount);
  }

  /** For every disk count, no two cards overlap. */
  lemma ArrangementDisjoint(diskCount: nat)
    ensures var a := Arrange(diskCount);
      forall i, j :: 0 <= i < j < |a.Cards()| ==> Disjoint(a.Cards()[i].frame, a.Cards()[j].frame)
  {
    var a := Arrange(diskCount);
    ColumnsDisjoint(diskCount);
    CardsOfArrangement(diskCount);
    forall i, j | 0 <= i < j < |a.Cards()|
      ensures Disjoint(a.Cards()[i].frame, a.Cards()[j].frame)
    {
      if j < 4 {
        assert a.Cards()[i] == a.left[i] && a.Cards()[j] == a.left[j];
      } else if i < 4 {
        assert a.Cards()[i] == a.left[i] && a.Cards()[j] == a.right[j - 4];
      } else {
        assert a.Cards()[i] == a.right[i - 4] && a.Cards()[j] == a.right[j - 4];
      }
    }
  }

  /** Within a column cards are stacked apart, and the columns are side by side. */
  lemma ColumnsDisjoint(diskCount: nat)
    ensures var a := Arrange(diskCount);
      (forall i, j :: 0 <= i < j < 4 ==> a.left[i].frame.bottom < a.left[j].frame.top) &&
      (forall i, j :: 0 <= i < j < 3 ==> a.right[i].frame.bottom < a.right[j].frame.top) &&
      (forall i, j :: 0 <= i < 4 && 0 <= j < 3 ==> a.left[i].frame.right < a.right[j].frame.left)
  {
    LeftStacked(diskCount);
    RightStacked(diskCount);
    ColumnsApart(diskCount);
  }

  lemma LeftStacked(diskCount: nat)
    ensures var a := Arrange(diskCount);
      forall i, j :: 0 <= i < j < 4 ==> a.left[i].frame.bottom < a.left[j].frame.top
  {
    StackOrdered(LeftX, ColumnTop, CardWidth, LeftColumn());
  }

  lemma RightStacked(diskCount: nat)
    ensures var a := Arrange(diskCount);
      forall i, j :: 0 <= i < j < 3 ==> a.right[i].frame.bottom < a.right[j].frame.top
  {
    StackOrdered(RightX, ColumnTop, CardWidth, RightColumn(diskCount));
  }

  lemma ColumnsApart(diskCount: nat)
    ensures var a := Arrange(diskCount);
      forall i, j :: 0 <= i < 4 && 0 <= j < 3 ==> a.left[i].frame.right < a.right[j].frame.left
  {
    ColumnsFit();
  }

  // ---- progress bars ----

  lemma ScaleWithin(w: real, f: real)
    requires 0.0 <= w && 0.0 <= f <= 1.0
    ensures 0.0 <= w * f <= w
  {
  }

  lemma ScaleNonNegative(w: real, f: real)
    requires 0.0 <= w && 0.0 <= f
    ensures 0.0 <= w * f
  {
  }

  /** The four facts `Scaled` promises, about `w * (p / 100)` for a width `w`. */
  lemma ScaleBounds(w: real, p: real)
    requires 0.0 <= w
    ensures p >= 0.0 ==> w * (p / 100.0) >= 0.0
    ensures 0.0 <= p <= 100.0 ==> w * (p / 100.0) <= w
    ensures p == 100.0 ==> w * (p / 100.0) == w
    ensures p <= 0.0 ==> w * (p / 100.0) <= 0.0
  {
    var f := p / 100.0;
    if p >= 0.0 {
      assert 0.0 <= f;
      ScaleNonNegative(w, f);
    }
    if 0.0 <= p <= 100.0 {
      assert 0.0 <= f <= 1.0;
      ScaleWithin(w, f);
    }
    if p <= 0.0 {
      assert f <= 0.0;
      ScaleNonNegative(w, -f);
      assert w * f == -(w * -f);
    }
  }

  /** The exact proportional width `barWidth * (percentage / 100)`. */
  function Scaled(barWidth: int, percentage: real): (r: real)
    ensures barWidth >= 0 && percentage >= 0.0 ==> r >= 0.0
    ensures barWidth >= 0 && 0.0 <= percentage <= 100.0 ==> r <= barWidth as real
    ensures percentage == 100.0 ==> r == barWidth as real
    ensures barWidth >= 0 && percentage <= 0.0 ==> r <= 0.0
  {
    if barWidth >= 0 then
      ScaleBounds(barWidth as real, percentage);
      barWidth as real * (percentage / 100.0)
    else
      barWidth as real * (percentage / 100.0)
  }

  /** `max(int(barWidth * (percentage / 100)), minimum)`. */
  function BarFill(barWidth: int, percentage: real, minimum: nat): (w: int)
    ensures w >= minimum
    // above the minimum, the fill is the proportional width rounded down
    ensures barWidth >= 0 && percentage >= 0.0 && w > minimum ==>
              w as real <= Scaled(barWidth, percentage) < w as real + 1.0
    // a percentage in range never overruns a track at least as wide as the minimum
    ensures minimum <= barWidth && 0.0 <= percentage <= 100.0 ==> w <= barWidth
    ensures minimum <= barWidth && percentage == 100.0 ==> w == barWidth
    // a proportional width that clears the minimum by a whole pixel is used
    ensures barWidth >= 0 && percentage >= 0.0 && Scaled(barWidth, percentage) >= (minimum + 1) as real ==>
              w > minimum
    // an empty or negative percentage leaves just the minimum
    ensures barWidth >= 0 && percentage <= 0.0 ==> w == minimum
  {
    var t := Numbers.Trunc(Scaled(barWidth, percentage));
    if t > minimum then t else minimum
  }

  /** The fill only grows with the percentage. */
  lemma BarFillMonotone(barWidth: int, p: real, q: real, minimum: nat)
    requires barWidth >= 0 && p <= q
    ensures BarFill(barWidth, p, minimum) <= BarFill(barWidth, q, minimum)
  {
    ScaledMonotone(barWidth, p, q);
    Numbers.TruncMonotone(Scaled(barWidth, p), Scaled(barWidth, q));
  }

  lemma HundredthMonotone(p: real, q: real)
    requires p <= q
    ensures p / 100.0 <= q / 100.0
  {
    assert q / 100.0 - p / 100.0 == (q - p) / 100.0;
  }

  lemma ScaledMonotone(barWidth: int, p: real, q: real)
    requires barWidth >= 0 && p <= q
    ensures Scaled(barWidth, p) <= Scaled(barWidth, q)
  {
    var w, f, g := barWidth as real, p / 100.0, q / 100.0;
    HundredthMonotone(p, q);
    ScaleMonotone(w, f, g);
    var lo, hi := w * f, w * g;
    assert lo <= hi;
    assert Scaled(barWidth, p) == lo;
    assert Scaled(barWidth, q) == hi;
  }

  lemma ScaleMonotone(w: real, f: real, g: real)
    requires 0.0 <= w && f <= g
    ensures w * f <= w * g
  {
  }

  /** The track and fill rectangles of one bar, and where its percentage label goes. */
  datatype Bar = Bar(track: Rect, fill: Rect, labelX: int)

  /** `_draw_progress_bar` at `(x, y)` with the given width: an 18 px high
      track starting 50 px in, 80 px narrower than the width, and a fill of
      at least 6 px. */
  function ProgressBar(x: int, y: int, width: int, percentage: real): (b: Bar)
    ensures b.track.left == b.fill.left == x + 50
    ensures b.track.top == b.fill.top == y && b.track.bottom == b.fill.bottom == y + 18
    ensures b.fill.right - b.fill.left == BarFill(b.track.right - b.track.left, percentage, 6)
    ensures b.fill.right - b.fill.left >= 6
    ensures width >= 86 && 0.0 <= percentage <= 100.0 ==> b.fill.right <= b.track.right
    ensures b.labelX == b.track.right + 8
    ensures b.track.right == x + width - 30
  {
    var barWidth := width - 80;
    var barX := x + 50;
    var fill := BarFill(barWidth, percentage, 6);
    Bar(Rect(barX, y, barX + barWidth, y + 18), Rect(barX, y, barX + fill, y + 18), barX + barWidth + 8)
  }

  /** `_draw_mini_progress`: a 12 px track 30 px in, 140 px narrower than the
      width, and a fill of at least 4 px. */
  function MiniBar(x: int, y: int, width: int, percentage: real): (b: Bar)
    ensures b.track.left == b.fill.left == x + 30
    ensures b.track.top == b.fill.top == y + 2 && b.track.bottom == b.fill.bottom == y + 14
    ensures b.fill.right - b.fill.left == BarFill(b.track.right - b.track.left, percentage, 4)
    ensures b.fill.right - b.fill.left >= 4
    ensures width >= 144 && 0.0 <= percentage <= 100.0 ==> b.fill.right <= b.track.right
    ensures b.labelX == b.track.right + 6
    ensures b.track.right == x + width - 110
  {
    var barWidth := width - 30 - 110;
    var barX := x + 30;
    var fill := BarFill(barWidth, percentage, 4);
    Bar(Rect(barX, y + 2, barX + barWidth, y + 14), Rect(barX, y + 2, barX + fill, y + 14), barX + barWidth + 6)
  }
}

=== FILE: memory_history.dfy ===
/** The process-wide memory history (`deque(maxlen=60)` of resident-memory
    samples in MB), the statistics and six-way trend heuristic the `mem`
    command reports over it, and the background recorder's single step. */
module MemoryHistory {
  import opened Wrappers

  /** `maxlen` of the deque: one hour of one-per-minute samples. */
  const Capacity: nat := 60

  /** Samples per window in the trend comparison. */
  const TrendWindow: nat := 5

  /** A history as the deque can hold it, oldest sample first. */
  type History = h: seq<real> | |h| <= Capacity

  /** The newest `Capacity` samples of an arbitrarily long sample stream. */
  function Newest(s: seq<real>): (r: seq<real>)
    ensures |r| <= Capacity
  {
    if |s| <= Capacity then s else s[|s| - Capacity..]
  }

  /** `deque.append` on a bounded deque: when full, the oldest sample drops off. */
  function Append(h: History, x: real): (r: History)
    ensures |r| == if |h| < Capacity then |h| + 1 else Capacity
    ensures r[|r| - 1] == x
    // below capacity nothing is lost
    ensures |h| < Capacity ==> forall i :: 0 <= i < |h| ==> r[i] == h[i]
    // at capacity exactly the oldest sample goes and the rest shift down in order
    ensures |h| == Capacity ==> forall i :: 0 <= i < Capacity - 1 ==> r[i] == h[i + 1]
    ensures r == Newest(h + [x])
  {
    if |h| < Capacity then h + [x] else h[1..] + [x]
  }

  /** Appending a stream of samples one by one. */
  function AppendAll(h: History, xs: seq<real>): History
    decreases |xs|
  {
    if xs == [] then h else AppendAll(Append(h, xs[0]), xs[1..])
  }

  lemma NewestTwice(s: seq<real>, t: seq<real>)
    ensures Newest(Newest(s) + t) == Newest(s + t)
  {
    var a := Newest(s) + t;
    var b := s + t;
    var ra := Newest(a);
    var rb := Newest(b);
    assert |ra| == |rb|;
    forall i | 0 <= i < |ra|
      ensures ra[i] == rb[i]
    {
      assert ra[i] == a[|a| - |ra| + i];
      assert rb[i] == b[|b| - |rb| + i];
    }
  }

  /** However many samples arrive, the history holds exactly the newest
      `Capacity` of everything appended, in arrival order. */
  lemma {:induction false} AppendAllKeepsNewest(h: History, xs: seq<real>)
    ensures AppendAll(h, xs) == Newest(h + xs)
    decreases |xs|
  {
    if xs == [] {
      assert h + xs == h;
    } else {
      var h' := Append(h, xs[0]);
      AppendAllKeepsNewest(h', xs[1..]);
      NewestTwice(h + [xs[0]], xs[1..]);
      assert h + [xs[0]] + xs[1..] == h + xs;
    }
  }

  // ---- statistics ----

  /** Python's `sum`, a left fold from zero. */
  function Sum(s: seq<real>): real {
    if s == [] then 0.0 else Sum(s[..|s| - 1]) + s[|s| - 1]
  }

  function Mean(s: seq<real>): real
    requires |s| > 0
  {
    Sum(s) / (|s| as real)
  }

  /** Python's `max` of a non-empty sequence: an upper bound of the samples. */
  function Max(s: seq<real>): (m: real)
    requires |s| > 0
    ensures forall i :: 0 <= i < |s| ==> s[i] <= m
    decreases |s|
  {
    if |s| == 1 then s[0]
    else
      var m := Max(s[..|s| - 1]);
      assert forall i :: 0 <= i < |s| - 1 ==> s[..|s| - 1][i] == s[i];
      if s[|s| - 1] > m then s[|s| - 1] else m
  }

  /** Python's `min` of a non-empty sequence: a lower bound of the samples. */
  function Min(s: seq<real>): (m: real)
    requires |s| > 0
    ensures forall i :: 0 <= i < |s| ==> m <= s[i]
    decreases |s|
  {
    if |s| == 1 then s[0]
    else
      var m := Min(s[..|s| - 1]);
      assert forall i :: 0 <= i < |s| - 1 ==> s[..|s| - 1][i] == s[i];
      if s[|s| - 1] < m then s[|s| - 1] else m
  }

  /** The maximum and minimum are samples, not just bounds. */
  lemma {:induction false} ExtremesAttained(s: seq<real>)
    requires |s| > 0
    ensures Max(s) in s && Min(s) in s
    decreases |s|
  {
    if |s| > 1 {
      var init := s[..|s| - 1];
      ExtremesAttained(init);
      assert forall x :: x in init ==> x in s;
    }
  }

  /** A sum of samples between two bounds lies between the bounds scaled by the count. */
  lemma {:induction false} SumBounds(s: seq<real>, lo: real, hi: real)
    requires forall i :: 0 <= i < |s| ==> lo <= s[i] <= hi
    ensures (|s| as real) * lo <= Sum(s) <= (|s| as real) * hi
    decreases |s|
  {
    if s != [] {
      var init := s[..|s| - 1];
      assert forall i :: 0 <= i < |init| ==> init[i] == s[i];
      SumBounds(init, lo, hi);
      assert Sum(s) == Sum(init) + s[|s| - 1];
      var k := |init| as real;
      assert (|s| as real) == k + 1.0;
      assert (k + 1.0) * lo == k * lo + lo;
      assert (k + 1.0) * hi == k * hi + hi;
    }
  }

  lemma DivideBounds(total: real, n: real, lo: real, hi: real)
    requires n > 0.0
    requires n * lo <= total <= n * hi
    ensures lo <= total / n <= hi
  {
    var q := total / n;
    assert total == n * q;
  }

  /** A sum of samples bounded by the extremes, in the form the division needs. */
  lemma SumWithinExtremes(s: seq<real>)
    requires |s| > 0
    ensures (|s| as real) * Min(s) <= Sum(s) <= (|s| as real) * Max(s)
  {
    SumBounds(s, Min(s), Max(s));
  }

  lemma DivideTimes(total: real, n: real)
    requires n > 0.0
    ensures n * (total / n) == total
  {
  }

  /** The mean of samples lies between their minimum and maximum. */
  lemma MeanBetween(s: seq<real>)
    requires |s| > 0
    ensures Min(s) <= Mean(s) <= Max(s)
  {
    SumWithinExtremes(s);
    DivideBounds(Sum(s), |s| as real, Min(s), Max(s));
  }

  /** The mean times the sample count gives back the total. */
  lemma MeanTimesCount(s: seq<real>)
    requires |s| > 0
    ensures (|s| as real) * Mean(s) == Sum(s)
  {
    DivideTimes(Sum(s), |s| as real);
  }

  datatype Stats = Stats(current: real, average: real, peak: real, low: real)

  /** `peak` and `low` are the largest and smallest samples of `h`: they
      bound every sample and are samples themselves. */
  predicate Extremes(h: seq<real>, peak: real, low: real) {
    (forall i :: 0 <= i < |h| ==> low <= h[i] <= peak) && peak in h && low in h
  }

  lemma MaxMinAreExtremes(h: seq<real>)
    requires |h| > 0
    ensures Extremes(h, Max(h), Min(h))
  {
    ExtremesAttained(h);
  }

  /** The figures the `mem` command computes over a non-empty history. */
  function Statistics(h: History): (st: Stats)
    requires |h| > 0
    ensures st.current == h[|h| - 1]
    ensures Extremes(h, st.peak, st.low)
    ensures st.low <= st.current <= st.peak
    ensures st.low <= st.average <= st.peak
    ensures (|h| as real) * st.average == Sum(h)
  {
    MeanBetween(h);
    MeanTimesCount(h);
    MaxMinAreExtremes(h);
    Stats(h[|h| - 1], Mean(h), Max(h), Min(h))
  }

  // ---- trend ----

  /** The six trend buckets, in the order the report can show them. */
  datatype Trend = Collecting | MarkedRise | SlowRise | Stable | SlowFall | MarkedFall

  /** Orders the five comparison buckets from the strongest fall (0) to the
      strongest rise (4). */
  function Level(t: Trend): nat
    requires t != Collecting
  {
    match t
    case MarkedFall => 0
    case SlowFall => 1
    case Stable => 2
    case SlowRise => 3
    case MarkedRise => 4
  }

  /** The `mem` command's threshold cascade on the difference of window means. */
  function Classify(diff: real): (t: Trend)
    ensures t != Collecting
    ensures t == MarkedRise <==> diff > 10.0
    ensures t == SlowRise <==> 2.0 < diff <= 10.0
    ensures t == Stable <==> -2.0 <= diff <= 2.0
    ensures t == SlowFall <==> -10.0 <= diff < -2.0
    ensures t == MarkedFall <==> diff < -10.0
  {
    if diff > 10.0 then MarkedRise
    else if diff > 2.0 then SlowRise
    else if diff < -10.0 then MarkedFall
    else if diff < -2.0 then SlowFall
    else Stable
  }

  /** A larger difference never lands in a lower bucket. */
  lemma ClassifyMonotone(d1: real, d2: real)
    requires d1 <= d2
    ensures Level(Classify(d1)) <= Level(Classify(d2))
  {
  }

  /** Mean of the newest five minus mean of the oldest five samples. */
  function WindowDiff(h: seq<real>): real
    requires |h| >= TrendWindow
  {
    Mean(h[|h| - TrendWindow..]) - Mean(h[..TrendWindow])
  }

  /** The trend line of the report: still collecting below five samples,
      otherwise the bucket of the window difference. */
  function TrendOf(h: History): (t: Trend)
    ensures t == Collecting <==> |h| < TrendWindow
    ensures |h| >= TrendWindow ==> t == Classify(WindowDiff(h))
  {
    if |h| >= TrendWindow then Classify(WindowDiff(h)) else Collecting
  }

  /** With exactly five samples both windows are the whole history. */
  lemma FiveSamplesAreStable(h: History)
    requires |h| == TrendWindow
    ensures TrendOf(h) == Stable
  {
    assert h[|h| - TrendWindow..] == h == h[..TrendWindow];
  }

  lemma {:induction false} SumPointwise(a: seq<real>, b: seq<real>)
    requires |a| == |b|
    requires forall i :: 0 <= i < |a| ==> a[i] <= b[i]
    ensures Sum(a) <= Sum(b)
    decreases |a|
  {
    if a != [] {
      var a', b' := a[..|a| - 1], b[..|b| - 1];
      assert forall i :: 0 <= i < |a'| ==> a'[i] == a[i] && b'[i] == b[i];
      SumPointwise(a', b');
    }
  }

  predicate NonDecreasing(h: seq<real>) {
    forall i, j :: 0 <= i <= j < |h| ==> h[i] <= h[j]
  }

  /** Memory that never went down is never reported as falling. */
  lemma NonDecreasingNeverFalls(h: History)
    requires |h| >= TrendWindow
    requires NonDecreasing(h)
    ensures TrendOf(h) != SlowFall && TrendOf(h) != MarkedFall
  {
    var recent := h[|h| - TrendWindow..];
    var oldest := h[..TrendWindow];
    assert forall i :: 0 <= i < TrendWindow ==> oldest[i] == h[i] && recent[i] == h[|h| - TrendWindow + i];
    SumPointwise(oldest, recent);
  }

  /** `s` with every sample raised by `c`. */
  function Shift(s: seq<real>, c: real): (r: seq<real>)
    ensures |r| == |s|
    ensures forall i :: 0 <= i < |s| ==> r[i] == s[i] + c
  {
    seq(|s|, i requires 0 <= i < |s| => s[i] + c)
  }

  lemma {:induction false} SumShift(s: seq<real>, c: real)
    ensures Sum(Shift(s, c)) == Sum(s) + (|s| as real) * c
    decreases |s|
  {
    if s != [] {
      var init := s[..|s| - 1];
      assert Shift(s, c)[..|s| - 1] == Shift(init, c);
      SumShift(init, c);
    }
  }

  /** The trend depends only on how memory moved, not on its level: raising
      every sample by the same amount leaves the bucket unchanged. */
  lemma TrendShiftInvariant(h: History, c: real)
    ensures TrendOf(Shift(h, c)) == TrendOf(h)
  {
    if |h| >= TrendWindow {
      var h' := Shift(h, c);
      assert h'[|h'| - TrendWindow..] == Shift(h[|h| - TrendWindow..], c);
      assert h'[..TrendWindow] == Shift(h[..TrendWindow], c);
      SumShift(h[|h| - TrendWindow..], c);
      SumShift(h[..TrendWindow], c);
      assert WindowDiff(h') == WindowDiff(h);
    }
  }

  // ---- the `mem` command and the recorder ----

  /** The host's uniform command result: success, status message, whether the
      host should treat the output as notable. */
  datatype CommandResult = CommandResult(success: bool, message: string, notable: bool)

  /** What the `mem` command reports: nothing, or the statistics over the
      minutes of history it saw. */
  datatype Report = NoData | Analysis(minutes: nat, stats: Stats, trend: Trend)

  datatype MemOutcome = MemOutcome(history: History, report: Report, result: CommandResult)

  /** One recorder step: a sample read (None when the process query raised)
      is appended; a failed read leaves the history alone. */
  function Record(h: History, sample: Option<real>): (r: History)
    ensures sample.None? ==> r == h
    ensures sample.Some? ==> r == Append(h, sample.value)
  {
    match sample
    case None => h
    case Some(x) => Append(h, x)
  }

  /** The `mem` command: an empty history is first given one lazy sample;
      if it is still empty the command reports no data, otherwise it
      analyses the history. */
  function MemCommand(h: History, sample: Option<real>): (out: MemOutcome)
    // the lazy sample is taken only into an empty history
    ensures |h| > 0 ==> out.history == h
    ensures |h| == 0 ==> out.history == Record(h, sample)
    ensures out.report.NoData? <==> |h| == 0 && sample.None?
    ensures out.report.NoData? ==> out.result == CommandResult(true, "❌ 暂无内存数据", false)
    ensures out.report.Analysis? ==>
              out.result == CommandResult(true, "内存分析已发送", true) &&
              out.report.minutes == |out.history| > 0 &&
              out.report.stats.current == out.history[|out.history| - 1] &&
              out.report.stats == Statistics(out.history) &&
              out.report.trend == TrendOf(out.history)
  {
    var h' := if |h| == 0 then Record(h, sample) else h;
    if |h'| == 0 then MemOutcome(h', NoData, CommandResult(true, "❌ 暂无内存数据", false))
    else MemOutcome(h', Analysis(|h'|, Statistics(h'), TrendOf(h')), CommandResult(true, "内存分析已发送", true))
  }

  /** A history seeded with five equal samples reports that value for every
      statistic and a stable trend. */
  lemma EqualSamplesReport(v: real)
    ensures var out := MemCommand([v, v, v, v, v], None);
      out.report == Analysis(5, Stats(v, v, v, v), Stable)
  {
    var h: History := [v, v, v, v, v];
    ExtremesAttained(h);
    MeanBetween(h);
    FiveSamplesAreStable(h);
  }

  /** The first `mem` on an empty history with a successful sample sees just
      that sample and is still collecting. */
  lemma FirstLazySample(m: real)
    ensures MemCommand([], Some(m)).report == Analysis(1, Stats(m, m, m, m), Collecting)
  {
    var h: History := [m];
    assert Append([], m) == h;
    ExtremesAttained(h);
    MeanBetween(h);
  }

  /** A `mem` that produced an analysis leaves a history a second `mem`
      analyses unchanged, whatever that second call's sample would have been:
      the lazy sample only ever fills an empty history. */
  lemma MemCommandRepeats(h: History, first: Option<real>, second: Option<real>)
    requires MemCommand(h, first).report.Analysis?
    ensures var out := MemCommand(h, first);
      MemCommand(out.history, second) == out
  {
    var out := MemCommand(h, first);
    assert |out.history| > 0;
  }
}

=== FILE: numbers.dfy ===
/** Python's numeric conversions that the model needs spelled out. */
module Numbers {

  /** Python's `int()` of a float: truncation toward zero. */
  function Trunc(r: real): (n: int)
    ensures r >= 0.0 ==> n as real <= r < n as real + 1.0
    ensures r < 0.0 ==> n as real - 1.0 < r <= n as real
  {
    if r >= 0.0 then r.Floor else -((-r).Floor)
  }

  /** Truncation toward zero keeps order. */
  lemma TruncMonotone(a: real, b: real)
    requires a <= b
    ensures Trunc(a) <= Trunc(b)
  {
    if a >= 0.0 {
      assert Trunc(a) as real <= a <= b;
    } else if b < 0.0 {
      assert Trunc(b) as real - 1.0 < b;
      assert a <= Trunc(a) as real;
    } else {
      assert Trunc(a) <= 0 <= Trunc(b);
    }
  }
}

=== FILE: plugins.dfy ===
/** Plugin counts shown by the status command: how many loaded plugins
    there are and how many of them are enabled. */
module Plugins {
  import opened Wrappers

  /** A loaded plugin as the host registry reports it. */
  datatype PluginState = PluginState(name: string, enabled: bool)

  /** `len([p for p in plugins if p.enable_plugin])`. */
  function EnabledCount(ps: seq<PluginState>): (n: nat)
    ensures n <= |ps|
    ensures n == |ps| <==> forall i :: 0 <= i < |ps| ==> ps[i].enabled
    ensures n == 0 <==> forall i :: 0 <= i < |ps| ==> !ps[i].enabled
    decreases |ps|
  {
    if ps == [] then 0
    else
      var rest := EnabledCount(ps[1..]);
      assert forall i :: 1 <= i < |ps| ==> ps[i] == ps[1..][i - 1];
      (if ps[0].enabled then 1 else 0) + rest
  }

  /** Counting distributes over joining registries. */
  lemma {:induction false} EnabledCountAppend(a: seq<PluginState>, b: seq<PluginState>)
    ensures EnabledCount(a + b) == EnabledCount(a) + EnabledCount(b)
    decreases |a|
  {
    if a == [] {
      assert a + b == b;
    } else {
      assert (a + b)[1..] == a[1..] + b;
      EnabledCountAppend(a[1..], b);
    }
  }

  /** The enabled figure the plugin card shows: the reported count, or the
      loaded count when none was reported. */
  function ShownEnabled(pluginCount: nat, enabledCount: Option<nat>): (n: nat)
    ensures enabledCount.Some? ==> n == enabledCount.value
    ensures enabledCount.None? ==> n == pluginCount
  {
    enabledCount.GetOr(pluginCount)
  }
}

=== FILE: status_command.dfy ===
/** The `status` command: the data mapping it assembles from the collected
    metrics, and its result whether the image renders or the text fallback
    is sent. Metric collection, messaging and the renderer's failure are
    inputs. */
module StatusCommand {
  import opened Wrappers
  import Numbers
  import Duration
  import Disks
  import Plugins
  import Dashboard
  import MemoryHistory

  /** What `get_bot_process_info` returns when the process query succeeds. */
  datatype ProcessInfo = ProcessInfo(pid: nat, memoryMb: real, threads: nat, uptime: real)

  /** The metrics the command reads before building its mapping. */
  datatype Metrics = Metrics(
    cpuPercent: real,
    ramPercent: real,
    secondsSinceBoot: real,
    partitions: Option<seq<Disks.Partition>>,
    usage: Disks.Partition -> Option<Disks.Usage>,
    process: Option<ProcessInfo>,
    plugins: seq<Plugins.PluginState>)

  /** The part of the mapping the text report and the dashboard read. */
  datatype StatusData = StatusData(
    snapshot: Dashboard.Snapshot,
    bootTime: string,
    botUptime: string,
    botMemoryMb: real,
    botThreads: nat)

  /** The `boot_time` entry: the time since boot, cut toward zero to whole seconds and
      formatted; only a lapse of a second or more backwards reads "N/A". */
  function Elapsed(seconds: real): (s: string)
    ensures s == "N/A" <==> seconds <= -1.0
    // under a second either way truncates to zero, as `int(-0.5) == 0`
    ensures -1.0 < seconds < 1.0 ==> s == "0秒"
    ensures seconds >= 0.0 ==> Duration.Parse(s) == Some(Duration.PartsOf(Numbers.Trunc(seconds)))
  {
    var whole := Numbers.Trunc(seconds);
    assert -1.0 < seconds < 1.0 ==> Duration.Format(whole) == "0秒" by {
      if -1.0 < seconds < 1.0 {
        assert whole == 0;
        Duration.ZeroFormatsAsZeroSeconds();
      }
    }
    Duration.Format(whole)
  }

  /** The `bot_uptime` entry: the uptime text; a failed process query counts as zero
      seconds. */
  function BotUptime(process: Option<ProcessInfo>): (s: string)
    ensures process.None? ==> s == "0秒"
    ensures process.Some? && process.value.uptime <= -1.0 ==> s == "N/A"
    ensures process.Some? && -1.0 < process.value.uptime < 0.0 ==> s == "0秒"
    ensures process.Some? && process.value.uptime >= 0.0 ==>
      Duration.Parse(s) == Some(Duration.PartsOf(Numbers.Trunc(process.value.uptime)))
  {
    Elapsed(if process.Some? then process.value.uptime else 0.0)
  }

  /** The entries of the mapping the dashboard reads. The bot status is always
      running and the monitor keys are never set. */
  function SnapshotOf(m: Metrics): (snap: Dashboard.Snapshot)
    ensures snap.cpuPercent == Some(m.cpuPercent) && snap.ramPercent == Some(m.ramPercent)
    ensures snap.botStatus == Some(Dashboard.Running)
    ensures snap.monitorRunning.None? && snap.autoRestartInterval.None?
    ensures snap.disks == Disks.DiskInfo(m.partitions, m.usage)
    ensures snap.pluginCount == Some(|m.plugins|)
    ensures snap.enabledPluginCount == Some(Plugins.EnabledCount(m.plugins))
    ensures snap.enabledPluginCount.Some? && snap.enabledPluginCount.value <= |m.plugins|
    ensures snap.enabledPluginCount.value == |m.plugins| <==>
      forall i :: 0 <= i < |m.plugins| ==> m.plugins[i].enabled
  {
    Dashboard.Snapshot(
      Some(m.cpuPercent), Some(m.ramPercent),
      Disks.DiskInfo(m.partitions, m.usage),
      Some(Dashboard.Running), None, None,
      Some(|m.plugins|), Some(Plugins.EnabledCount(m.plugins)))
  }

  /** The `bot_memory_mb` and `bot_threads` entries: the memory and thread
      count shown, zero when the process query failed. */
  function ProcessFigures(process: Option<ProcessInfo>): (r: (real, nat))
    ensures process.None? ==> r == (0.0, 0)
    ensures process.Some? ==> r == (process.value.memoryMb, process.value.threads)
  {
    if process.Some? then (process.value.memoryMb, process.value.threads) else (0.0, 0)
  }

  /** The whole mapping `execute` builds. */
  function Collect(m: Metrics): (d: StatusData)
    ensures d.snapshot == SnapshotOf(m)
    ensures d.bootTime == Elapsed(m.secondsSinceBoot)
    ensures d.botUptime == BotUptime(m.process)
    ensures (d.botMemoryMb, d.botThreads) == ProcessFigures(m.process)
  {
    var figures := ProcessFigures(m.process);
    StatusData(SnapshotOf(m), Elapsed(m.secondsSinceBoot), BotUptime(m.process), figures.0, figures.1)
  }

  /** What the command sends. */
  datatype Output = ImageSent(image: Dashboard.Image) | TextSent(data: StatusData)

  /** The answer of `execute`: the image when rendering succeeds, otherwise the text
      report; the result is a notable success on both paths. */
  function Run(m: Metrics, renderOk: bool): (out: (Output, MemoryHistory.CommandResult))
    ensures out.1.success && out.1.notable
    ensures renderOk <==> out.0.ImageSent?
    ensures out.0.ImageSent? ==> out.0.image == Dashboard.Generate(Collect(m).snapshot) &&
                                 out.1.message == "状态图片已发送"
    ensures out.0.TextSent? ==> out.0.data == Collect(m) && out.1.message == "状态信息已发送"
  {
    var d := Collect(m);
    if renderOk then (ImageSent(Dashboard.Generate(d.snapshot)), MemoryHistory.CommandResult(true, "状态图片已发送", true))
    else (TextSent(d), MemoryHistory.CommandResult(true, "状态信息已发送", true))
  }

  /** The dashboard the command draws always shows the bot running in green,
      the monitor as not running in red, scheduled restart switched off, and
      the enabled plugins counted from the registry, no more than are loaded. */
  lemma StatusDashboardFacts(m: Metrics)
    ensures var img := Dashboard.Generate(SnapshotOf(m));
      img.botStatusColor == Dashboard.Success &&
      img.monitorColor == Dashboard.Danger &&
      img.restartLabel == "已关闭" &&
      img.pluginsLoaded == |m.plugins| &&
      img.pluginsEnabled == Plugins.EnabledCount(m.plugins) <= img.pluginsLoaded
  {
    Dashboard.MonitorCard(SnapshotOf(m));
  }

  /** When the process query fails, the bot card shows zero uptime, memory
      and threads. */
  lemma FailedProcessQuery(m: Metrics)
    requires m.process.None?
    ensures var d := Collect(m);
      d.botUptime == "0秒" && d.botMemoryMb == 0.0 && d.botThreads == 0
  {
    assert ProcessFigures(m.process) == (0.0, 0);
  }
}

=== FILE: wrappers.dfy ===
/** The optional-value wrapper used across the model for lookups that may
    be absent and for operating-system queries that may fail. */
module Wrappers {

  datatype Option<+T> = None | Some(value: T) {

    /** The wrapped value, or `default` when there is none (Python's
        `dict.get(key, default)`). */
    function GetOr(default: T): (r: T)
      ensures Some? ==> r == value
      ensures None? ==> r == default
    {
      match this
      case Some(v) => v
      case None => default
    }
  }
}
